=== FILE: README.md ===
# District Vibez ticketing, modelled in Dafny

District Vibez sells tickets for one event. A buyer picks a quantity,
enters contact details and pays through the Paystack gateway. Three
server routes carry an order:

- `initiate-payment` validates the request, prices it from the event record,
  inserts a `pending` attendee and opens a gateway session;
- `paystack-webhook` receives signed gateway events, logs each one and
  overwrites the named attendee's status on `charge.success` /
  `charge.failed`, bumping the event's `tickets_sold`;
- `verify-payment` looks an attendee up by gateway reference, read-only.

Around them sit client components with small pieces of arithmetic and string
logic: the ticket selection and checkout pages, the single-event purchase
form, the admin dashboard (counts, revenue, conversion rate, CSV export), the
partners carousel, and the ticket-id / QR-payload generator.

The model follows what the code does. The route handlers have no guard on
the current status, no deduplication of gateway events and no ticket
issuance, so neither does the model, and the lemmas in `Lifecycle` state
what the handlers really give (overwrites, double counting, overselling).

Layout, one module per file:

| file | module | models |
|---|---|---|
| wrappers.dfy | Wrappers | `Option` |
| js.dfy | Js | the JavaScript built-ins the code leans on: `substring`, truncating `%`, ASCII `toUpperCase`, `trim` |
| text.dfy | Text | `Array.prototype.join` / `String.prototype.split` with a one-character separator |
| radix.dfy | Radix | `Number.prototype.toString(radix)` and `parseInt` |
| store.dfy | Store | the Supabase tables: `events`, `attendees`, `payment_logs` |
| paystack.dfy | Paystack | the gateway's request and reply shapes and the webhook payload |
| http.dfy | Http | route responses |
| initiate_payment.dfy | InitiatePayment | `POST /api/initiate-payment` |
| paystack_webhook.dfy | PaystackWebhook | `POST /api/paystack-webhook` |
| verify_payment.dfy | VerifyPayment | `GET /api/verify-payment` |
| lifecycle.dfy | Lifecycle | sequences of handler calls over one store |
| ticket_selection.dfy | TicketSelection | `components/ticket-selection.tsx` |
| ticket_checkout.dfy | TicketCheckout | `components/ticket-checkout.tsx` |
| ticket_form.dfy | TicketForm | `components/ticket-form.tsx` |
| ticket_generator.dfy | TicketGenerator | `lib/ticket-generator.ts` |
| admin_dashboard.dfy | AdminDashboard | `components/admin-dashboard.tsx` |
| partners_section.dfy | PartnersSection | `components/partners-section.tsx` |

Environment inputs become parameters: the id the database assigns to a new
attendee (`newId`), whether a store write fails (`insertFails`, `Faults`),
the gateway (a function from request to reply, with a `…Threw` reply for an
exception), the webhook signature check (a predicate on body and signature),
the result of `JSON.parse` (`Option<WebhookEvent>`), `Date.now()`,
`Math.random().toString(36)`, `new Date().toISOString()` and the locale date
renderer.

## Model

| member | source | states |
|---|---|---|
| InitiatePayment.Handle | app/api/initiate-payment/route.ts:7-75 | A falsy field gives 400 "Missing required fields", a quantity outside 1..10 gives 400, an unknown event 404, too little capacity 400, each with the store unchanged and no gateway call. The store changes exactly when the request is admissible and the insert succeeds, and then only by one new pending attendee. The gateway is called exactly then, with amount quantity × stored price and metadata (attendee id, event id, quantity). The answer is 200 with the session only if the gateway reports success; otherwise 500 and the pending row stays. |
| InitiatePayment.PendingAttendee | app/api/initiate-payment/route.ts:35-43 | The inserted row is pending, has no reference and no payment time, and carries the requested quantity and the computed amount, and the request's event id, name, email and phone. |
| PaystackWebhook.Handle | app/api/paystack-webhook/route.ts:5-85 | A missing signature gives 400 and a failing one 401, both with the store unchanged; an unparsable body gives 500 with nothing logged. Every authentic parsed event appends exactly one log row unless the insert fails, whatever its type. `charge.success` and `charge.failed` are answered by their own handlers, run on the store with the log row added. Other event types change only the log and answer 200. Attendee and event keys are never added or removed, and `total_tickets` and `ticket_price` never change. |
| PaystackWebhook.AppendLog | app/api/paystack-webhook/route.ts:22-25 | Appends one row with the event type and payload, or nothing when the insert fails; attendees and events are untouched. |
| PaystackWebhook.OnChargeSuccess | app/api/paystack-webhook/route.ts:28-61 | Missing data gives 500; no attendee id in the metadata gives 400. With an attendee id, an invalid payment time gives 500 "Internal server error" and, with a valid one, an update error gives 500 "Failed to update attendee", neither changing the store. It answers 200 exactly when data, id and payment time are valid and the update succeeds. On 200 the named attendee becomes success, with the delivered reference and payment time, and no other attendee changes. `tickets_sold` of the metadata's event grows by the metadata's quantity unless the increment fails, which does not change the 200. |
| PaystackWebhook.OnChargeFailed | app/api/paystack-webhook/route.ts:65-80 | With data the answer is always 200. The named attendee, if any, becomes failed with the delivered reference and keeps its payment time. Nothing else changes; events and the log are untouched. |
| PaystackWebhook.IncrementTicketsSold | app/api/paystack-webhook/route.ts:52-55 | Adds the quantity to the named event's `tickets_sold` with no capacity or status check; other events, attendees and the log are unchanged. |
| Store.UpdateAttendee | app/api/paystack-webhook/route.ts:37-44 | `update(...).eq("id", id)`: only the row with that id changes, by the given change; a missing id changes nothing; the key set is kept. |
| VerifyPayment.Handle | app/api/verify-payment/route.ts:5-50 | Never changes the store. The gateway is queried exactly when the reference is non-empty. Empty reference gives 400, a gateway exception 500, gateway status false 400. After a confirmation, a failing lookup or anything but exactly one matching attendee gives 404. The answer is 200 exactly when the gateway confirms, the lookup succeeds and exactly one attendee holds the reference. On 200 the body pairs the gateway's status, amount and time with that attendee's stored fields, unreconciled. |
| Lifecycle.InitiateKeepsRefs | app/api/initiate-payment/route.ts:33-45 | Opening a payment never stores a gateway reference. |
| Lifecycle.WebhookRefs | app/api/paystack-webhook/route.ts:37-44 | A webhook delivery can add only the reference its own payload carries. |
| Lifecycle.RefsComeFromWebhooks | app/api/paystack-webhook/route.ts:41 | After any sequence of calls every stored reference was there before or was carried by a webhook delivery in the sequence. |
| Lifecycle.VerifyBeforeWebhookNotFound | app/api/verify-payment/route.ts:24-32 | Verifying a reference that the starting store does not hold and no delivered webhook carried gives 404, even when the gateway confirms the payment, whether or not the lookup itself fails. |
| Lifecycle.InitiationsAloneNeverVerify | app/api/verify-payment/route.ts:24-32 | On a store without references, any number of payment initiations leave verification at 404. |
| Lifecycle.FailureOverwritesSuccess | app/api/paystack-webhook/route.ts:70-76 | A `charge.failed` after a `charge.success` for the same attendee leaves it failed, with the second reference and the first payment time. |
| Lifecycle.RedeliveryCountsTwice | app/api/paystack-webhook/route.ts:52-61 | The same `charge.success` delivered twice logs two rows and adds its quantity to `tickets_sold` twice. |
| Lifecycle.InitiationThenSuccess | app/api/initiate-payment/route.ts:55-59 | The metadata the initiation sends is what the webhook reads: echoed back in an authentic `charge.success`, it marks the new attendee paid and counts its quantity against its event. |
| Lifecycle.PendingReservesNothing | app/api/initiate-payment/route.ts:26-28 | After one admissible order is inserted, another order is admissible exactly when it was before: pending rows reserve no capacity. |
| Lifecycle.Oversell | app/api/initiate-payment/route.ts:26 | Two orders that each fit the remaining capacity are both accepted, and once both are paid `tickets_sold` exceeds `total_tickets`. |
| TicketGenerator.TicketId | lib/ticket-generator.ts:11-15 | Every id starts with "DV-", has no lower-case ASCII letter, and is at most 19 characters plus the timestamp's length. |
| TicketGenerator.Segments | lib/ticket-generator.ts:14 | The id is "DV", the upper-cased id prefix, timestamp and random segments joined by '-', in that order. |
| TicketGenerator.Fields | lib/ticket-generator.ts:14 | When the id prefix and random segment hold no '-', splitting the id on '-' gives exactly those four fields. |
| TicketGenerator.TimeRecoverable | lib/ticket-generator.ts:12 | The third field reads back with `parseInt(_, 36)` to the clock reading. |
| TicketGenerator.DistinctTimesDistinctIds | lib/ticket-generator.ts:12-14 | Ids made at different milliseconds differ, whatever the random parts. |
| TicketGenerator.OnlyIdPrefixMatters | lib/ticket-generator.ts:14 | Attendee ids agreeing on their first eight characters give the same ticket id for the same clock and random readings. |
| TicketGenerator.RandomFieldLength | lib/ticket-generator.ts:13 | The random segment has at most six characters. |
| TicketGenerator.QrCodeData | lib/ticket-generator.ts:17-26 | The payload copies ticket id, attendee id, attendee name, event title and quantity, with the given timestamp. |
| TicketGenerator.QrOmitsContactAndVenue | lib/ticket-generator.ts:18-25 | Email, date and location never reach the payload. |
| Radix.ToDigits | lib/ticket-generator.ts:12 | `n.toString(base)` is non-empty and consists of digits of that base. |
| Radix.FromToDigits | lib/ticket-generator.ts:12 | Reading back a rendered numeral gives the number. |
| Radix.IntText | components/admin-dashboard.tsx:97 | `String(n)` reads back to the number: the whole text for n >= 0, the text after the sign for n < 0. |
| Radix.IntTextSign | components/admin-dashboard.tsx:97 | The text starts with '-' exactly for a negative number, followed by the magnitude's own text. |
| Radix.FromUpperDigits | lib/ticket-generator.ts:14 | Upper-casing a rendered numeral does not change what it reads back to. |
| Js.UpperCase | lib/ticket-generator.ts:14 | Keeps the length, upper-cases each ASCII letter, leaves every other character alone. |
| Js.Substring | lib/ticket-generator.ts:13-14 | The result is the stretch of the string between the smaller and the larger bound, each clamped to [0, length]; never longer than the string or the span between the bounds. |
| Js.SubstringSwap | lib/ticket-generator.ts:13-14 | Swapping the two bounds gives the same result. |
| Js.SubstringClamps | lib/ticket-generator.ts:13-14 | A negative bound acts as 0 and a bound past the end acts as the length. |
| TicketCheckout.FindType | components/ticket-checkout.tsx:51 | Finds the table entry with that id, or reports that none has it. |
| TicketCheckout.Subtotal | components/ticket-checkout.tsx:50-53 | Is non-negative when all quantities are. |
| TicketCheckout.SubtotalByType | components/ticket-checkout.tsx:29-53 | The subtotal is 750000 × the rockstar quantity plus 2500000 × the legend quantity; other ids add nothing. |
| TicketCheckout.TotalQuantity | components/ticket-checkout.tsx:55 | A one-entry selection totals that entry's quantity, whatever its id. With no negative quantity the total count is non-negative, and zero exactly when every quantity is zero. |
| TicketCheckout.TotalQuantityConcat | components/ticket-checkout.tsx:55 | The total of two selections back to back is the sum of their totals, so every entry counts once, ids outside the price table included. |
| TicketCheckout.QuantityWithinTotal | components/ticket-checkout.tsx:55 | With no negative quantity, the quantity under any one id lies between 0 and the total count. |
| TicketCheckout.Total | components/ticket-checkout.tsx:42-56 | The total minus the 49500 service fee is the subtotal, so it is never below the fee for non-negative quantities. |
| TicketCheckout.UnpricedSubtotal | components/ticket-checkout.tsx:50-56 | A selection of ids outside the table costs nothing but the service fee. |
| TicketCheckout.SelectionPageTicketsUnpriced | components/ticket-checkout.tsx:55 | A selection made on the selection page (only "regular") has subtotal 0 and total 49500, while all its tickets count in `totalQuantity`. |
| TicketCheckout.AllOneId | components/ticket-checkout.tsx:55 | When every entry has the same id the total quantity is that id's quantity. |
| TicketCheckout.InitialAttendees | components/ticket-checkout.tsx:59-65 | Yields max(0, totalQuantity) blank attendees. |
| TicketCheckout.UpdateAttendee | components/ticket-checkout.tsx:67-69 | Changes only the given field of the entry at the index; length and every other entry and field kept; out of range nothing changes. |
| TicketCheckout.RemoveAttendee | components/ticket-checkout.tsx:71-73 | Removes exactly the entry at an in-range index, keeping the others in order; out of range it changes nothing. |
| TicketCheckout.HandleCheckout | components/ticket-checkout.tsx:88-115 | The request is sent exactly when no attendee's name or email is empty after trimming, and then carries the selection, attendees, subtotal, fee and total. |
| Js.Trim | components/ticket-checkout.tsx:90 | The trimmed text is the stretch of the input that starts where the leading white space ends, with only white space before and after it; unless empty it neither starts nor ends with white space. |
| Js.Rem | components/partners-section.tsx:20-24 | JavaScript's `%`: the remainder is smaller than the divisor in magnitude, has the dividend's sign (0 counting as either) and differs from the dividend by a multiple of the divisor. |
| Js.RemUnique | components/partners-section.tsx:20-24 | Those properties determine the remainder: any value with them is `Rem(a, b)`. |
| Js.TrimEmptyIffBlank | components/ticket-checkout.tsx:90 | `s.trim()` is empty exactly when `s` is all white space. |
| TicketCheckout.FirstSelected | components/ticket-checkout.tsx:83 | Returns the first id with quantity above 0, or none when there is none. |
| TicketCheckout.SelectedTicketName | components/ticket-checkout.tsx:82-86 | Is "Ticket" or a table name, and a table name exactly when the first selected id is in the table; then it is that ticket type's name. |
| TicketCheckout.OnUpdateTickets | components/ticket-checkout.tsx:137-146 | Nothing is forwarded without a ticket id; otherwise that id with the quantity clamped to at least 0. |
| TicketSelection.Get | components/ticket-selection.tsx:34 | `prev[id] \|\| 0`: the stored quantity, or 0 for an absent key. |
| TicketSelection.Put | components/ticket-selection.tsx:32-35 | Sets one key, adding it if absent; every other key keeps its value. |
| TicketSelection.UpdateQuantity | components/ticket-selection.tsx:31-36 | The key becomes max(0, old + change) with an absent key read as 0; all other keys keep their values. |
| TicketSelection.HasSelectedTickets | components/ticket-selection.tsx:42 | True exactly when some key has a quantity above 0. |
| TicketSelection.PressKeepsNonNegative | components/ticket-selection.tsx:34 | From a non-negative selection, any sequence of presses keeps every quantity non-negative. |
| TicketSelection.InitialNonNegative | components/ticket-selection.tsx:29 | The empty starting selection is non-negative. |
| TicketSelection.DecrementAtZero | components/ticket-selection.tsx:75-76 | A decrement at 0 leaves 0. |
| TicketSelection.IncrementThenDecrement | components/ticket-selection.tsx:75-89 | +1 then −1 on a non-negative quantity returns every key to its value. |
| TicketForm.QuantityOptions | components/ticket-form.tsx:131 | Has max(0, min(10, availableTickets)) entries. |
| TicketForm.OptionsCharacterised | components/ticket-form.tsx:131 | A quantity is offered exactly when it is between 1 and 10 and at most the tickets available; the options ascend strictly. |
| TicketForm.OptionsPassServerChecks | components/ticket-form.tsx:131 | Every offered quantity passes the server's range check and, against the same event record, its capacity check. |
| TicketForm.AvailableTickets | app/page.tsx:75 | The count is the largest quantity the server's capacity check accepts for the event: a quantity passes exactly when it is at most the count. |
| TicketForm.TotalAmount | components/ticket-form.tsx:45 | For a priced ticket the total is zero only for no tickets; one ticket or more cost at least one ticket's price. |
| TicketForm.DefaultQuantityOffered | components/ticket-form.tsx:25 | The default quantity 1 is offered whenever a ticket is available. |
| TicketForm.TotalMatchesServerCharge | components/ticket-form.tsx:45 | The total the form shows is the amount the server charges for the same quantity and event. |
| TicketForm.SubmitEnabledWhenOversold | components/ticket-form.tsx:171 | As written, with one ticket oversold the submit button is enabled while no quantity is offered. |
| TicketForm.SubmitDisabledAsWritten | components/ticket-form.tsx:171 | The rule as written agrees with the corrected rule whenever the count is not negative; with a negative count and no load in progress it leaves submit enabled while nothing is offered. |
| TicketForm.SubmitDisabled | components/ticket-form.tsx:171 | Corrected rule: disabled exactly while loading or when no quantity is offered; when enabled the default quantity is on offer. |
| AdminDashboard.StatusFilter | components/admin-dashboard.tsx:125-126 | An attendee is in the result exactly when it is in the list with the given status; the whole list when all have it, nothing when none does. |
| AdminDashboard.StatusFilterConcat | components/admin-dashboard.tsx:125-126 | Filtering a concatenation is concatenating the filtered parts, so the filter keeps list order. |
| AdminDashboard.StatusFilterSnoc | components/admin-dashboard.tsx:125-126 | Appending an attendee appends it to the filtered list exactly when it has the status. |
| AdminDashboard.Successful | components/admin-dashboard.tsx:125 | Exactly the listed attendees whose status is `success`. |
| AdminDashboard.PendingOnes | components/admin-dashboard.tsx:126 | Exactly the listed attendees whose status is `pending`. |
| AdminDashboard.TotalRevenue | components/admin-dashboard.tsx:127 | With no successful attendee the revenue is 0; with every attendee successful it is the sum of all amounts. |
| AdminDashboard.StatusCounts | components/admin-dashboard.tsx:125-126 | Successful, pending and failed counts add up to the list's length, so successful plus pending never exceeds it. |
| AdminDashboard.RevenueSnoc | components/admin-dashboard.tsx:127 | Appending an attendee adds its amount to the revenue if it succeeded and nothing otherwise. |
| AdminDashboard.RevenueAfterRewrite | components/admin-dashboard.tsx:127 | Rewriting one attendee moves the revenue by the difference of its success-only contributions. |
| AdminDashboard.RevenueBounds | components/admin-dashboard.tsx:127 | With non-negative amounts the revenue is between 0 and the sum of all amounts. |
| AdminDashboard.ConversionRate | components/admin-dashboard.tsx:190 | 0 for an empty list; otherwise the percentage of successful attendees rounded to the nearest integer, halves up; always in 0..100, 100 when all succeeded, 0 when none did. |
| AdminDashboard.RoundBounds | components/admin-dashboard.tsx:190 | The integer formula lies within half a unit below and above 100·s/t. |
| AdminDashboard.KoboText | components/admin-dashboard.tsx:98 | The amount renders with a decimal point followed by exactly two digits. |
| AdminDashboard.KoboTextRoundTrip | components/admin-dashboard.tsx:98 | The amount column reads back to the amount in kobo, negative amounts included. |
| AdminDashboard.RowFields | components/admin-dashboard.tsx:93-101 | Seven fields in header order: name, email, phone, quantity, amount reading back to `amount_paid`, status, and the date or "N/A" when unpaid. |
| AdminDashboard.RowColumns | components/admin-dashboard.tsx:92-101 | With no comma in any field, splitting a row on ',' gives back exactly its seven fields. |
| AdminDashboard.CommasAddColumns | components/admin-dashboard.tsx:101 | Fields are not quoted: a row holds six commas plus every comma inside its fields. |
| AdminDashboard.LinesShape | components/admin-dashboard.tsx:90-102 | The first line is the header; line i + 1 is attendee i's row. |
| AdminDashboard.CsvContent | components/admin-dashboard.tsx:90-103 | Without attendees the export is the header line alone; it holds at least one line break per attendee. |
| AdminDashboard.CsvLines | components/admin-dashboard.tsx:90-103 | With no line break in any field, splitting the export on "\n" gives back the header line and one row per attendee, in list order. |
| Text.SplitJoin | components/admin-dashboard.tsx:101 | Splitting a join on a separator no part contains gives the parts back. |
| Text.CountJoin | components/admin-dashboard.tsx:101 | A join holds one separator between consecutive parts plus those inside the parts. |
| PartnersSection.PositionsAsWritten | components/partners-section.tsx:20 | The modulus `max(1, n − 4)` is at least 1. |
| PartnersSection.Next | components/partners-section.tsx:19-21 | From a position in range, moves one on and wraps from the last to 0. |
| PartnersSection.Prev | components/partners-section.tsx:23-25 | From a position in range, moves one back and wraps from 0 to the last. |
| PartnersSection.PrevUndoesNext | components/partners-section.tsx:19-25 | Previous after next returns to the position. |
| PartnersSection.NextUndoesPrev | components/partners-section.tsx:19-25 | Next after previous returns to the position. |
| PartnersSection.SlideInRange | components/partners-section.tsx:19-25 | Any sequence of presses from a position in range stays in range. |
| PartnersSection.ForwardRotates | components/partners-section.tsx:20 | k presses of next move k positions on, wrapping to 0 at the end. |
| PartnersSection.FullCycle | components/partners-section.tsx:20 | As many presses of next as there are positions return to the start. |
| PartnersSection.TwoPositionsAsWritten | components/partners-section.tsx:10-20 | With the six partners the modulus is 2 and both buttons toggle between 0 and 1. |
| PartnersSection.OffsetBounded | components/partners-section.tsx:57 | The shift is between 0 and (m − 1) × 25 percent. |
| PartnersSection.LastPartnerHiddenAsWritten | components/partners-section.tsx:20 | As written, no sequence of presses brings the sixth logo into view. |
| PartnersSection.Positions | components/partners-section.tsx:20 | Corrected modulus: at least 1, and one position per window of four logos when there are at least four. |
| PartnersSection.EveryPartnerReachable | components/partners-section.tsx:19-21 | With the corrected modulus every logo comes into view after enough presses of next. |
| PartnersSection.NoBlankSlots | components/partners-section.tsx:57 | With the corrected modulus the window never runs past the last logo. |

## Left out

- Gateway HTTP calls and the HMAC-SHA512 webhook check in `lib/paystack.ts` are foreign I/O and cryptography; the gateway is a function parameter and the check a predicate parameter. That file's string comparison and empty-secret fallback are not modelled.
- `callback_url` (built from an environment variable) is not part of the gateway payload, because it never affects a response or the store.
- `lib/email.tsx`, admin authentication, and the pure UI, navigation and `sessionStorage` plumbing are outside the core. The single exception is the subtraction at `app/page.tsx` line 75, modelled as `TicketForm.AvailableTickets`.
- JSON text is not modelled. `JSON.parse` is an `Option` input, and `JSON.stringify` of the QR payload is left as the `QrPayload` record.
- The checkout page's request body and the initiate route's destructured fields are modelled separately, not composed, because they do not match: the body lacks name, email, phone, quantity and eventId.
- Request fields are typed as strings and an integer quantity. A non-integer or non-number JSON quantity is not modelled, so `quantity` comparisons are integer comparisons.
- Store errors are modelled as the error results the client returns, one flag per call, each answered as the route answers it: `insertFails` (the attendee insert) gives 500; `Faults.attendeeUpdate` gives 500 on `charge.success` and is ignored on `charge.failed`; `Faults.logInsert` and `Faults.increment` are ignored, the answer staying 200; `lookupFails` (the attendee lookup in verification) gives 404. A store call that throws instead of returning an error, which the routes' `catch` would turn into a 500, is not modelled. The `.single()` lookup of the event is modelled as "key present".
- The body of the `increment_tickets_sold` database function is not part of the repository; it is modelled as adding the quantity to the event's counter.
- Timestamps are integers. `created_at`, the ordering by `created_at`, and ISO/locale date rendering are left out; the CSV takes the locale date renderer as a parameter.
- PaystackWebhook.OnChargeSuccess: an invalid `paid_at` becomes a 500 after the log row, standing for the `RangeError` that `toISOString` throws; valid times are kept as integers rather than re-rendered.
- Floating point: `toLocaleString` amounts are not modelled. `toFixed(2)` and `Math.round` are modelled in exact integer arithmetic.
- AdminDashboard.ConversionRate: rounds the exact ratio. A floating-point quotient landing just below a half (rather than on it) could round differently in the browser.
- Js.UpperCase: upper-cases ASCII letters only, whereas `toUpperCase` also maps other scripts. Ticket ids are built from a UUID prefix and base-36 digits, which are ASCII.
- JavaScript objects list integer-like keys before string keys. `TicketSelection.Quantities` keeps plain insertion order, which matches for the string ids the pages use.
- TicketCheckout.OnUpdateTickets: models the clamp and the value forwarded. The forwarding target it tests for (`TicketCheckout.props`) is never set, so in the running page nothing is forwarded.
- Concurrency between the webhook and verification is not modelled; `Lifecycle` covers sequential interleavings only, matching the absence of any guard in the code.
- Exactly-once payment, amount re-verification, ticket issuance and notification are not implemented by the handlers and are not modelled.

## Findings

| source | as written | input that shows it | evidently intended | confidence | as-written member | corrected member |
|---|---|---|---|---|---|---|
| components/ticket-form.tsx:171 | submit is disabled only when `availableTickets === 0` | `tickets_sold = total_tickets + 1` (reachable, see `Lifecycle.Oversell`) gives `availableTickets = -1`: submit enabled, drop-down empty | disable when `availableTickets <= 0` | medium, not executed | TicketForm.SubmitEnabledWhenOversold | TicketForm.SubmitDisabled |
| components/partners-section.tsx:20 | the carousel wraps at `max(1, partners.length - 4)` | six logos, four in view, 25% per step: positions 0 and 1 only, so logo 6 ("Partner 6") is never shown | `partners.length - 3` windows, one per run of four consecutive logos | medium, not executed | PartnersSection.LastPartnerHiddenAsWritten | PartnersSection.EveryPartnerReachable |

=== FILE: admin_dashboard.dfy ===
/**
 * The admin dashboard's figures over the attendee list it loads: the
 * success and pending counts, the revenue, the conversion rate, and the
 * CSV export.
 */
module AdminDashboard {
  import opened Wrappers
  import opened Store
  import Radix
  import Text

  /** The attendees of `l` with status `s`, in list order. */
  function StatusFilter(l: seq<Attendee>, s: PaymentStatus): (r: seq<Attendee>)
    ensures |r| <= |l|
    ensures forall i :: 0 <= i < |r| ==> r[i].paymentStatus == s
    ensures forall a :: a in r <==> a in l && a.paymentStatus == s
    ensures (forall i :: 0 <= i < |l| ==> l[i].paymentStatus == s) ==> r == l
    ensures (forall i :: 0 <= i < |l| ==> l[i].paymentStatus != s) ==> r == []
    decreases |l|
  {
    if |l| == 0 then []
    else
      var init, last := l[..|l| - 1], l[|l| - 1];
      assert l == init + [last];
      var rest := StatusFilter(init, s);
      if last.paymentStatus == s then rest + [last] else rest
  }

  /** Filtering a concatenation filters each part and keeps them in order. */
  lemma {:induction false} StatusFilterConcat(l1: seq<Attendee>, l2: seq<Attendee>, s: PaymentStatus)
    ensures StatusFilter(l1 + l2, s) == StatusFilter(l1, s) + StatusFilter(l2, s)
    decreases |l2|
  {
    if |l2| == 0 {
      assert l1 + l2 == l1;
    } else {
      var init, last := l2[..|l2| - 1], l2[|l2| - 1];
      var tail := if last.paymentStatus == s then [last] else [];
      assert l2 == init + [last];
      assert l1 + l2 == (l1 + init) + [last];
      calc {
        StatusFilter(l1 + l2, s);
      == { StatusFilterSnoc(l1 + init, last, s); }
        StatusFilter(l1 + init, s) + tail;
      == { StatusFilterConcat(l1, init, s); }
        (StatusFilter(l1, s) + StatusFilter(init, s)) + tail;
      == // concatenation is associative
        StatusFilter(l1, s) + (StatusFilter(init, s) + tail);
      == { StatusFilterSnoc(init, last, s); }
        StatusFilter(l1, s) + StatusFilter(l2, s);
      }
    }
  }

  /** Appending one attendee appends it to the filtered list exactly when it has the status. */
  lemma StatusFilterSnoc(l: seq<Attendee>, a: Attendee, s: PaymentStatus)
    ensures StatusFilter(l + [a], s) == StatusFilter(l, s) + (if a.paymentStatus == s then [a] else [])
  {
    assert (l + [a])[..|l + [a]| - 1] == l;
  }

  /** `attendees.filter((a) => a.payment_status === "success")`. */
  function Successful(l: seq<Attendee>): (r: seq<Attendee>)
    ensures forall a :: a in r <==> a in l && a.paymentStatus == Success
  {
    StatusFilter(l, Success)
  }

  /** `attendees.filter((a) => a.payment_status === "pending")`. */
  function PendingOnes(l: seq<Attendee>): (r: seq<Attendee>)
    ensures forall a :: a in r <==> a in l && a.paymentStatus == Pending
  {
    StatusFilter(l, Pending)
  }

  /** The failed attendees; the dashboard shows no count of them. */
  function FailedOnes(l: seq<Attendee>): (r: seq<Attendee>)
    ensures forall a :: a in r <==> a in l && a.paymentStatus == Failed
  {
    StatusFilter(l, Failed)
  }

  /**
   * Every attendee is in exactly one of the three lists, so the success and
   * pending counts together never exceed the total and failed attendees are
   * in neither.
   */
  lemma {:induction false} StatusCounts(l: seq<Attendee>)
    ensures |Successful(l)| + |PendingOnes(l)| + |FailedOnes(l)| == |l|
    ensures |Successful(l)| + |PendingOnes(l)| <= |l|
    decreases |l|
  {
    if |l| > 0 {
      StatusCounts(l[..|l| - 1]);
    }
  }

  function SumAmounts(l: seq<Attendee>): int
    decreases |l|
  {
    if |l| == 0 then 0 else SumAmounts(l[..|l| - 1]) + l[|l| - 1].amountPaid
  }

  /**
   * `successfulAttendees.reduce((sum, a) => sum + a.amount_paid, 0)`: nothing
   * when no attendee succeeded, every amount when all did.
   */
  function TotalRevenue(l: seq<Attendee>): (r: int)
    ensures (forall i :: 0 <= i < |l| ==> l[i].paymentStatus != Success) ==> r == 0
    ensures (forall i :: 0 <= i < |l| ==> l[i].paymentStatus == Success) ==> r == SumAmounts(l)
  {
    SumAmounts(Successful(l))
  }

  /** What one attendee adds to the revenue. */
  function Contribution(a: Attendee): int {
    if a.paymentStatus == Success then a.amountPaid else 0
  }

  lemma {:induction false} RevenueSnoc(l: seq<Attendee>, a: Attendee)
    ensures TotalRevenue(l + [a]) == TotalRevenue(l) + Contribution(a)
  {
    assert (l + [a])[..|l|] == l;
  }

  /**
   * Rewriting one attendee (as the webhook does) moves the revenue by the
   * difference of its contributions: a success adds its amount, a later
   * failure takes it out again.
   */
  lemma {:induction false} RevenueAfterRewrite(l: seq<Attendee>, i: int, a: Attendee)
    requires 0 <= i < |l|
    ensures TotalRevenue(l[i := a]) == TotalRevenue(l) - Contribution(l[i]) + Contribution(a)
    decreases |l|
  {
    var last := |l| - 1;
    assert l == l[..last] + [l[last]];
    if i == last {
      assert l[i := a] == l[..last] + [a];
      RevenueSnoc(l[..last], a);
      RevenueSnoc(l[..last], l[last]);
    } else {
      assert l[i := a] == l[..last][i := a] + [l[last]];
      RevenueAfterRewrite(l[..last], i, a);
      RevenueSnoc(l[..last][i := a], l[last]);
      RevenueSnoc(l[..last], l[last]);
    }
  }

  /** With no negative amounts the revenue lies between 0 and the sum of every amount. */
  lemma {:induction false} RevenueBounds(l: seq<Attendee>)
    requires forall i :: 0 <= i < |l| ==> l[i].amountPaid >= 0
    ensures 0 <= TotalRevenue(l) <= SumAmounts(l)
    decreases |l|
  {
    if |l| > 0 {
      var last := |l| - 1;
      assert l == l[..last] + [l[last]];
      RevenueBounds(l[..last]);
      RevenueSnoc(l[..last], l[last]);
    }
  }

  /**
   * The conversion rate: `Math.round(successful / total * 100)`, or 0 for an
   * empty list, in integers: the nearest whole percentage, halves rounding up.
   */
  function ConversionRate(l: seq<Attendee>): (r: int)
    ensures 0 <= r <= 100
    ensures |l| == 0 ==> r == 0
    ensures |l| > 0 ==> 2 * |l| * r <= 200 * |Successful(l)| + |l| < 2 * |l| * (r + 1)
    ensures |l| > 0 && |Successful(l)| == |l| ==> r == 100
    ensures |Successful(l)| == 0 ==> r == 0
  {
    var s, t := |Successful(l)|, |l|;
    if t == 0 then 0
    else
      var r := (200 * s + t) / (2 * t);
      RoundBounds(s, t, r);
      r
  }

  lemma DivBounds(n: int, d: int)
    requires d > 0
    ensures d * (n / d) <= n < d * (n / d) + d
  {
  }

  lemma MulLessCancel(d: int, x: int, y: int)
    requires d > 0 && d * x < d * y
    ensures x < y
  {
    assert d * y - d * x == d * (y - x);
  }

  lemma RoundBounds(s: nat, t: nat, r: int)
    requires 0 < t && s <= t && r == (200 * s + t) / (2 * t)
    ensures 2 * t * r <= 200 * s + t < 2 * t * (r + 1)
    ensures 0 <= r <= 100
    ensures s == t ==> r == 100
    ensures s == 0 ==> r == 0
  {
    var n, d := 200 * s + t, 2 * t;
    DivBounds(n, d);
    assert d * (r + 1) == d * r + d;
    MulLessCancel(d, r, 101);
    if s == t {
      MulLessCancel(d, 99, r);
    }
    if s == 0 {
      MulLessCancel(d, r, 1);
    }
  }

  /** Two decimal digits for a number below 100, tens first. */
  function TwoDigitText(c: nat): (r: string)
    requires c < 100
    ensures |r| == 2 && Radix.AllDigits(r, 10)
    ensures Radix.FromDigits(r, 10) == Some(c)
  {
    Radix.DigitValueOfChar(c / 10);
    Radix.DigitValueOfChar(c % 10);
    var r := [Radix.DigitChar(c / 10), Radix.DigitChar(c % 10)];
    Radix.ValueSnoc([], r[0], 10);
    assert [] + [r[0]] == [r[0]];
    Radix.ValueSnoc([r[0]], r[1], 10);
    assert [r[0]] + [r[1]] == r;
    r
  }

  /** Whole naira, a point, and exactly two kobo digits. */
  function NairaText(kobo: nat): (s: string)
    ensures |s| >= 4 && s[|s| - 3] == '.'
    ensures s[..|s| - 3] == Radix.ToDigits(kobo / 100, 10)
    ensures s[|s| - 2..] == TwoDigitText(kobo % 100)
  {
    var whole := Radix.ToDigits(kobo / 100, 10);
    var cents := TwoDigitText(kobo % 100);
    var s := whole + ['.'] + cents;
    assert s[..|s| - 3] == whole;
    assert s[|s| - 2..] == cents;
    s
  }

  /** `(kobo / 100).toFixed(2)` for a whole number of kobo: always two decimals. */
  function KoboText(kobo: int): (s: string)
    ensures |s| >= 4 && s[|s| - 3] == '.'
    ensures Radix.AllDigits(s[|s| - 2..], 10)
  {
    var t := NairaText(if kobo < 0 then -kobo else kobo);
    if kobo < 0 then
      assert ("-" + t)[|t| - 1..] == t[|t| - 2..];
      "-" + t
    else t
  }

  /** Reads a `toFixed(2)` rendering back into kobo. */
  function ParseKobo(s: string): Option<int> {
    if |s| >= 4 && s[|s| - 3] == '.' then
      var neg := s[0] == '-';
      var whole := Radix.FromDigits(s[(if neg then 1 else 0)..|s| - 3], 10);
      var cents := Radix.FromDigits(s[|s| - 2..], 10);
      if whole.Some? && cents.Some? then
        var v: int := whole.value * 100 + cents.value;
        Some(if neg then -v else v)
      else None
    else None
  }

  lemma NairaTextParses(kobo: nat)
    ensures var s := NairaText(kobo); s[0] != '-' && ParseKobo(s) == Some(kobo)
  {
    var s := NairaText(kobo);
    var whole := Radix.ToDigits(kobo / 100, 10);
    Radix.FromToDigits(kobo / 100, 10);
    assert s[0] == whole[0];
    assert Radix.IsDigit(whole[0], 10);
    assert s[0..|s| - 3] == whole;
    assert kobo / 100 * 100 + kobo % 100 == kobo;
  }

  /** A leading minus sign negates what the rest reads as. */
  lemma ParseNegated(t: string, v: int)
    requires |t| >= 4 && t[0] != '-' && ParseKobo(t) == Some(v)
    ensures ParseKobo("-" + t) == Some(-v)
  {
    var s := "-" + t;
    assert s[1..|s| - 3] == t[0..|t| - 3];
    assert s[|s| - 2..] == t[|t| - 2..];
    assert s[|s| - 3] == t[|t| - 3];
  }

  /** The amount column reads back to the amount in kobo. */
  lemma KoboTextRoundTrip(kobo: int)
    ensures ParseKobo(KoboText(kobo)) == Some(kobo)
  {
    var m: nat := if kobo < 0 then -kobo else kobo;
    var t := NairaText(m);
    NairaTextParses(m);
    if kobo < 0 {
      ParseNegated(t, m);
    }
  }

  /** The column headings, in order. */
  const Header: seq<string> := ["Name", "Email", "Phone", "Tickets", "Amount", "Status", "Payment Date"]

  const NotAvailable: string := "N/A"

  /**
   * One attendee's fields in heading order. `dateText` stands for
   * `new Date(paid_at).toLocaleDateString()`.
   */
  function RowFields(a: Attendee, dateText: int -> string): (r: seq<string>)
    ensures |r| == |Header|
    ensures r[0] == a.name && r[1] == a.email && r[2] == a.phone
    ensures r[3] == Radix.IntText(a.ticketQuantity)
    ensures ParseKobo(r[4]) == Some(a.amountPaid)
    ensures r[5] == StatusText(a.paymentStatus)
    ensures a.paidAt.None? ==> r[6] == NotAvailable
    ensures a.paidAt.Some? ==> r[6] == dateText(a.paidAt.value)
  {
    var amount := KoboText(a.amountPaid);
    KoboTextRoundTrip(a.amountPaid);
    var date := if a.paidAt.Some? then dateText(a.paidAt.value) else NotAvailable;
    var r := [a.name, a.email, a.phone, Radix.IntText(a.ticketQuantity), amount, StatusText(a.paymentStatus), date];
    assert r[4] == amount;
    r
  }

  function HeaderLine(): string { Text.Join(Header, ',') }

  function Row(a: Attendee, dateText: int -> string): string {
    Text.Join(RowFields(a, dateText), ',')
  }

  /** The heading line, then one line per attendee in list order. */
  function Lines(l: seq<Attendee>, dateText: int -> string): (r: seq<string>)
    ensures |r| == |l| + 1
  {
    [HeaderLine()] + seq(|l|, i requires 0 <= i < |l| => Row(l[i], dateText))
  }

  /**
   * `exportAttendees`' text: the lines joined by line breaks. Without
   * attendees it is the header line alone; it holds at least one line break
   * per attendee.
   */
  function CsvContent(l: seq<Attendee>, dateText: int -> string): (r: string)
    ensures |l| == 0 ==> r == HeaderLine()
    ensures Text.Count(r, '\n') >= |l|
  {
    var r := Text.Join(Lines(l, dateText), '\n');
    Text.CountJoin(Lines(l, dateText), '\n');
    r
  }

  /** The characters a field may hold without breaking a line or a column. */
  predicate PlainField(s: string) {
    ',' !in s && '\n' !in s
  }

  /** The user-entered and locale-rendered fields of an attendee are plain. */
  predicate PlainAttendee(a: Attendee, dateText: int -> string) {
    PlainField(a.name) && PlainField(a.email) && PlainField(a.phone)
    && (a.paidAt.Some? ==> PlainField(dateText(a.paidAt.value)))
  }

  lemma DigitsPlain(s: string, base: int)
    requires Radix.ValidBase(base) && Radix.AllDigits(s, base)
    ensures PlainField(s)
  {
    forall i | 0 <= i < |s| ensures s[i] != ',' && s[i] != '\n' {
      assert Radix.IsDigit(s[i], base);
    }
  }

  lemma IntTextPlain(n: int)
    ensures PlainField(Radix.IntText(n))
  {
    DigitsPlain(Radix.ToDigits(if n < 0 then -n else n, 10), 10);
  }

  lemma KoboTextPlain(kobo: int)
    ensures PlainField(KoboText(kobo))
  {
    var t := NairaText(if kobo < 0 then -kobo else kobo);
    DigitsPlain(t[..|t| - 3], 10);
    DigitsPlain(t[|t| - 2..], 10);
    assert t == t[..|t| - 3] + ['.'] + t[|t| - 2..];
  }

  lemma FieldsPlain(a: Attendee, dateText: int -> string)
    requires PlainAttendee(a, dateText)
    ensures forall i :: 0 <= i < |RowFields(a, dateText)| ==> PlainField(RowFields(a, dateText)[i])
  {
    var r := RowFields(a, dateText);
    IntTextPlain(a.ticketQuantity);
    KoboTextPlain(a.amountPaid);
    assert PlainField(r[5]) by {
      match a.paymentStatus
      case Pending => assert r[5] == "pending";
      case Success => assert r[5] == "success";
      case Failed => assert r[5] == "failed";
    }
    assert PlainField(r[6]);
  }

  /** Without commas in its fields a row splits back into exactly its seven fields. */
  lemma RowColumns(a: Attendee, dateText: int -> string)
    requires PlainAttendee(a, dateText)
    ensures Text.Split(Row(a, dateText), ',') == RowFields(a, dateText)
  {
    FieldsPlain(a, dateText);
    Text.SplitJoin(RowFields(a, dateText), ',');
  }

  /** Fields are not quoted: every comma inside a field adds a column. */
  lemma CommasAddColumns(a: Attendee, dateText: int -> string)
    ensures Text.Count(Row(a, dateText), ',') == |Header| - 1 + Text.CountAll(RowFields(a, dateText), ',')
  {
    Text.CountJoin(RowFields(a, dateText), ',');
  }

  lemma RowPlainLine(a: Attendee, dateText: int -> string)
    requires PlainAttendee(a, dateText)
    ensures '\n' !in Row(a, dateText)
  {
    FieldsPlain(a, dateText);
    Text.JoinAbsent(RowFields(a, dateText), ',', '\n');
  }

  lemma HeaderPlainLine()
    ensures '\n' !in HeaderLine()
  {
    var h := Header;
    forall i | 0 <= i < |h| ensures '\n' !in h[i] {
      assert h[i] in {"Name", "Email", "Phone", "Tickets", "Amount", "Status", "Payment Date"};
    }
    Text.JoinAbsent(h, ',', '\n');
  }

  lemma LinesShape(l: seq<Attendee>, dateText: int -> string)
    ensures Lines(l, dateText)[0] == HeaderLine()
    ensures forall i :: 0 <= i < |l| ==> Lines(l, dateText)[i + 1] == Row(l[i], dateText)
  {
  }

  /**
   * Without line breaks in the fields the export splits back into its lines:
   * the heading line followed by one line per attendee, in list order.
   */
  lemma CsvLines(l: seq<Attendee>, dateText: int -> string)
    requires forall i :: 0 <= i < |l| ==> PlainAttendee(l[i], dateText)
    ensures Text.Split(CsvContent(l, dateText), '\n') == Lines(l, dateText)
  {
    var lines := Lines(l, dateText);
    LinesShape(l, dateText);
    forall j | 1 <= j < |lines| ensures '\n' !in lines[j] {
      assert lines[j] == Row(l[j - 1], dateText);
      RowPlainLine(l[j - 1], dateText);
    }
    HeaderPlainLine();
    Text.SplitJoin(lines, '\n');
  }
}

=== FILE: http.dfy ===
/** The JSON responses the route handlers return, with their HTTP status. */
module Http {
  import Store

  /** The attendee fields a verification response exposes. */
  datatype AttendeeView = AttendeeView(
    id: string,
    name: string,
    email: string,
    ticketQuantity: int,
    paymentStatus: Store.PaymentStatus)

  datatype Body =
    | Error(message: string)
    | Received
    | PaymentSession(authorizationUrl: string, reference: string, attendeeId: string)
    | Verification(status: string, amount: int, paidAt: string, attendee: AttendeeView)

  datatype Response = Response(status: int, body: Body)

  /** `NextResponse.json(body)`: status 200. */
  function Ok(body: Body): Response { Response(200, body) }

  /** `NextResponse.json({ error: message }, { status })`. */
  function Fail(status: int, message: string): Response { Response(status, Error(message)) }
}

=== FILE: initiate_payment.dfy ===
/**
 * `POST /api/initiate-payment`: validates the buyer's request, checks the
 * event's remaining capacity, prices the order from the store, inserts a
 * pending attendee and opens a gateway transaction for it.
 */
module InitiatePayment {
  import opened Wrappers
  import opened Store
  import opened Paystack
  import opened Http

  /**
   * The JSON body the handler destructures. A field the body lacks is the
   * empty string (or 0 for `quantity`), which JavaScript treats as falsy
   * just like the value itself.
   */
  datatype PaymentRequest = PaymentRequest(name: string, email: string, phone: string, quantity: int, eventId: string)

  /**
   * The response, the store afterwards, and the initialisation the handler
   * sent to the gateway, if it got that far.
   */
  datatype Outcome = Outcome(response: Response, db: Db, gatewayCall: Option<InitializePayload>)

  const MinQuantity: int := 1
  const MaxQuantity: int := 10

  /** Every field is truthy: strings non-empty and the quantity non-zero. */
  predicate FieldsPresent(req: PaymentRequest) {
    req.name != "" && req.email != "" && req.phone != "" && req.quantity != 0 && req.eventId != ""
  }

  predicate QuantityInRange(quantity: int) {
    MinQuantity <= quantity <= MaxQuantity
  }

  /** The capacity test, made against the tickets sold when the request arrives. */
  predicate HasCapacity(event: Event, quantity: int) {
    event.ticketsSold + quantity <= event.totalTickets
  }

  /** The request passes every check made before anything is written. */
  predicate Admissible(req: PaymentRequest, db: Db) {
    && FieldsPresent(req)
    && QuantityInRange(req.quantity)
    && req.eventId in db.events
    && HasCapacity(db.events[req.eventId], req.quantity)
  }

  /** The attendee row inserted for an admissible request charged `amount`. */
  function PendingAttendee(req: PaymentRequest, amount: int): (a: Attendee)
    ensures a.paymentStatus == Pending && a.paystackRef == None && a.paidAt == None
    ensures a.ticketQuantity == req.quantity && a.amountPaid == amount
    ensures a.eventId == req.eventId && a.name == req.name && a.email == req.email && a.phone == req.phone
  {
    Attendee(req.eventId, req.name, req.email, req.phone, req.quantity, amount, Pending, None, None)
  }

  /**
   * Handles one request. `newId` is the id the store gives the inserted row
   * and `insertFails` says whether the insert reports an error (an id already
   * in use is such an error); `gateway` answers the initialisation call.
   */
  function Handle(req: PaymentRequest, db: Db, newId: string, insertFails: bool,
                  gateway: InitializePayload -> InitializeReply): (o: Outcome)
    // the validation chain, in order; each rejection writes nothing
    ensures !FieldsPresent(req) ==> o == Outcome(Fail(400, "Missing required fields"), db, None)
    ensures FieldsPresent(req) && !QuantityInRange(req.quantity) ==>
              o == Outcome(Fail(400, "Invalid ticket quantity"), db, None)
    ensures FieldsPresent(req) && QuantityInRange(req.quantity) && req.eventId !in db.events ==>
              o == Outcome(Fail(404, "Event not found"), db, None)
    ensures FieldsPresent(req) && QuantityInRange(req.quantity) && req.eventId in db.events
            && !HasCapacity(db.events[req.eventId], req.quantity) ==>
              o == Outcome(Fail(400, "Not enough tickets available"), db, None)
    // a failed insert writes nothing and never reaches the gateway
    ensures Admissible(req, db) && (insertFails || newId in db.attendees) ==>
              o == Outcome(Fail(500, "Failed to create attendee record"), db, None)
    // the store changes only by one new pending attendee, priced from the store
    ensures o.db != db <==> Admissible(req, db) && !insertFails && newId !in db.attendees
    ensures o.db != db ==>
              && o.db.events == db.events
              && o.db.paymentLogs == db.paymentLogs
              && o.db.attendees.Keys == db.attendees.Keys + {newId}
              && o.db.attendees[newId]
                 == PendingAttendee(req, req.quantity * db.events[req.eventId].ticketPrice)
              && forall id :: id in db.attendees ==> o.db.attendees[id] == db.attendees[id]
    // the gateway is called exactly when the row was inserted, with the metadata the webhook reads
    ensures o.gatewayCall.Some? <==> o.db != db
    ensures o.gatewayCall.Some? ==>
              o.gatewayCall.value
              == InitializePayload(req.email, req.quantity * db.events[req.eventId].ticketPrice,
                                   Metadata(newId, req.eventId, req.quantity))
    // success needs the gateway's agreement; otherwise 500, and the pending row stays
    ensures o.response.status == 200 <==>
              o.gatewayCall.Some? && gateway(o.gatewayCall.value).InitializeReply?
              && gateway(o.gatewayCall.value).status
    ensures o.response.status == 200 ==>
              o.response.body
              == PaymentSession(gateway(o.gatewayCall.value).authorizationUrl,
                                gateway(o.gatewayCall.value).reference, newId)
    ensures o.gatewayCall.Some? && o.response.status != 200 ==>
              o.response == Fail(500, if gateway(o.gatewayCall.value).InitializeThrew?
                                      then "Internal server error" else "Failed to initialize payment")
  {
    if !FieldsPresent(req) then Outcome(Fail(400, "Missing required fields"), db, None)
    else if req.quantity < MinQuantity || req.quantity > MaxQuantity then
      Outcome(Fail(400, "Invalid ticket quantity"), db, None)
    else if req.eventId !in db.events then Outcome(Fail(404, "Event not found"), db, None)
    else
      var event := db.events[req.eventId];
      if event.ticketsSold + req.quantity > event.totalTickets then
        Outcome(Fail(400, "Not enough tickets available"), db, None)
      else
        var amount := req.quantity * event.ticketPrice;
        if insertFails || newId in db.attendees then
          Outcome(Fail(500, "Failed to create attendee record"), db, None)
        else
          var db' := db.(attendees := db.attendees[newId := PendingAttendee(req, amount)]);
          var call := InitializePayload(req.email, amount, Metadata(newId, req.eventId, req.quantity));
          match gateway(call)
          case InitializeThrew => Outcome(Fail(500, "Internal server error"), db', Some(call))
          case InitializeReply(status, url, reference) =>
            if !status then Outcome(Fail(500, "Failed to initialize payment"), db', Some(call))
            else Outcome(Ok(PaymentSession(url, reference, newId)), db', Some(call))
  }
}

=== FILE: js.dfy ===
/**
 * The few JavaScript built-ins the application relies on, with their
 * ECMAScript semantics written out: clamping `substring`, truncating `%`,
 * `toUpperCase` on ASCII letters, and `trim`.
 */
module Js {

  function Max(a: int, b: int): int { if a < b then b else a }

  function Min(a: int, b: int): int { if a < b then a else b }

  /** Clamps `x` into the closed interval [lo, hi]. */
  function Clamp(x: int, lo: int, hi: int): (r: int)
    requires lo <= hi
    ensures lo <= r <= hi
    ensures lo <= x <= hi ==> r == x
  {
    if x < lo then lo else if x > hi then hi else x
  }

  /**
   * `String.prototype.substring(start, end)`: both bounds are clamped to
   * [0, |s|] and swapped when out of order, so the result is the stretch
   * between the smaller and the larger clamped bound.
   */
  function Substring(s: string, start: int, end: int): (r: string)
    ensures |r| <= |s|
    ensures |r| <= Max(start, end) - Min(start, end)
    ensures 0 <= start <= end ==> r == s[Min(start, |s|)..Min(end, |s|)]
    ensures r == s[Clamp(Min(start, end), 0, |s|)..Clamp(Max(start, end), 0, |s|)]
  {
    var a := Clamp(start, 0, |s|);
    var b := Clamp(end, 0, |s|);
    if a <= b then s[a..b] else s[b..a]
  }

  /** The order of the two bounds does not matter. */
  lemma SubstringSwap(s: string, start: int, end: int)
    ensures Substring(s, start, end) == Substring(s, end, start)
  {
  }

  /** A negative bound counts as 0 and a bound past the end as |s|. */
  lemma SubstringClamps(s: string, start: int, end: int)
    ensures Substring(s, start, end) == Substring(s, Max(start, 0), Max(end, 0))
    ensures Substring(s, start, end) == Substring(s, Min(start, |s|), Min(end, |s|))
  {
  }

  function Abs(x: int): nat { if x < 0 then -x else x }

  /**
   * The `%` operator on integers: the remainder of the division truncated
   * toward zero, so it is smaller than the divisor in magnitude, carries the
   * dividend's sign and differs from the dividend by a multiple of the
   * divisor (Dafny's own `%` is Euclidean, never negative).
   */
  function Rem(a: int, b: int): (r: int)
    requires b != 0
    ensures Abs(r) < Abs(b)
    ensures a >= 0 ==> r >= 0
    ensures a < 0 ==> r <= 0
    ensures (a - r) % b == 0
  {
    if a >= 0 then
      assert a - a % b == b * (a / b);
      MultipleMod(b, a / b);
      a % b
    else
      var n := -a;
      assert n - n % b == b * (n / b);
      assert a - -(n % b) == b * -(n / b);
      MultipleMod(b, -(n / b));
      -(n % b)
  }

  /** A non-zero multiple of `b` is at least as large as `b` in magnitude. */
  lemma MultipleAbs(b: int, k: int)
    requires k != 0
    ensures Abs(b * k) >= Abs(b)
  {
    var x, y := Abs(b), Abs(k);
    assert Abs(b * k) == x * y by {
      if b < 0 && k < 0 { assert b * k == (-b) * (-k); }
      else if b < 0 { assert b * k == -((-b) * k); }
      else if k < 0 { assert b * k == -(b * (-k)); }
    }
    assert x * y == x * (y - 1) + x;
    assert x * (y - 1) >= 0;
  }

  /** Multiples of `b` leave no remainder. */
  lemma MultipleMod(b: int, k: int)
    requires b != 0
    ensures (b * k) % b == 0
  {
    var q, m := (b * k) / b, (b * k) % b;
    assert m == b * (k - q);
    if k - q != 0 {
      MultipleAbs(b, k - q);
    }
  }

  /**
   * The four properties of `Rem` pin the remainder down: any value with
   * them is `Rem(a, b)`.
   */
  lemma RemUnique(a: int, b: int, r: int)
    requires b != 0 && Abs(r) < Abs(b)
    requires a >= 0 ==> r >= 0
    requires a < 0 ==> r <= 0
    requires (a - r) % b == 0
    ensures r == Rem(a, b)
  {
    var r0 := Rem(a, b);
    var p, q := (a - r) / b, (a - r0) / b;
    assert r0 - r == b * (p - q);
    if p - q != 0 {
      MultipleAbs(b, p - q);
    }
  }

  predicate IsLowerAscii(c: char) { 'a' <= c <= 'z' }

  /** `toUpperCase` restricted to ASCII: only 'a'..'z' change. */
  function UpperChar(c: char): (u: char)
    ensures !IsLowerAscii(u)
    ensures !IsLowerAscii(c) ==> u == c
  {
    if IsLowerAscii(c) then (c as int - 'a' as int + 'A' as int) as char else c
  }

  function UpperCase(s: string): (r: string)
    ensures |r| == |s|
    ensures forall i :: 0 <= i < |s| ==> r[i] == UpperChar(s[i])
  {
    seq(|s|, i requires 0 <= i < |s| => UpperChar(s[i]))
  }

  /** Upper-casing works character by character, so it distributes over concatenation. */
  lemma UpperCaseConcat(a: string, b: string)
    ensures UpperCase(a + b) == UpperCase(a) + UpperCase(b)
  {
    assert forall i :: 0 <= i < |a + b| ==> UpperCase(a + b)[i] == (UpperCase(a) + UpperCase(b))[i];
  }

  /** The WhiteSpace and LineTerminator code points that `trim` removes. */
  predicate IsWhiteSpace(c: char) {
    || c == '\t' || c == '\n' || c == '\U{000B}' || c == '\U{000C}' || c == '\r' || c == ' '
    || c == '\U{00A0}' || c == '\U{1680}' || ('\U{2000}' <= c <= '\U{200A}')
    || c == '\U{2028}' || c == '\U{2029}' || c == '\U{202F}' || c == '\U{205F}'
    || c == '\U{3000}' || c == '\U{FEFF}'
  }

  /** Drops the leading white space: what is removed is all white space. */
  function TrimStart(s: string): (r: string)
    ensures |r| <= |s|
    ensures r == s[|s| - |r|..]
    ensures AllWhiteSpace(s[..|s| - |r|])
  {
    if |s| > 0 && IsWhiteSpace(s[0]) then
      var r := TrimStart(s[1..]);
      assert s[..|s| - |r|] == [s[0]] + s[1..][..|s| - 1 - |r|];
      r
    else s
  }

  /** Drops the trailing white space: what is removed is all white space. */
  function TrimEnd(s: string): (r: string)
    ensures |r| <= |s|
    ensures r == s[..|r|]
    ensures r != [] ==> !IsWhiteSpace(r[|r| - 1])
    ensures AllWhiteSpace(s[|r|..])
  {
    if |s| > 0 && IsWhiteSpace(s[|s| - 1]) then
      var r := TrimEnd(s[..|s| - 1]);
      assert s[|r|..] == s[..|s| - 1][|r|..] + [s[|s| - 1]];
      r
    else s
  }

  /**
   * `String.prototype.trim`: the input with its leading and trailing white
   * space removed, so a stretch of the input with only white space on
   * either side of it that, unless empty, neither starts nor ends with white
   * space.
   */
  function Trim(s: string): (r: string)
    ensures |r| <= |s|
    ensures TrimmedAt(s, r, |s| - |TrimStart(s)|)
    ensures r != [] ==> !IsWhiteSpace(r[0]) && !IsWhiteSpace(r[|r| - 1])
  {
    var t := TrimStart(s);
    var r := TrimEnd(t);
    TrimParts(s);
    if t == [] then r
    else
      TrimStartFirst(s);
      r
  }

  /**
   * `r` is the stretch of `s` starting at `i`, with only white space before
   * and after it.
   */
  ghost predicate TrimmedAt(s: string, r: string, i: int) {
    && 0 <= i <= |s| - |r| && r == s[i..i + |r|]
    && AllWhiteSpace(s[..i]) && AllWhiteSpace(s[i + |r|..])
  }

  /** What `trim` keeps sits between the white space it removes on either side. */
  lemma TrimParts(s: string)
    ensures TrimmedAt(s, TrimEnd(TrimStart(s)), |s| - |TrimStart(s)|)
  {
    var t := TrimStart(s);
    var i := |s| - |t|;
    var r := TrimEnd(t);
    SliceOfSuffix(s, i, |r|);
  }

  /** Slicing a suffix of `s` is slicing `s` itself, shifted by where the suffix starts. */
  lemma SliceOfSuffix(s: string, i: nat, k: nat)
    requires i + k <= |s|
    ensures s[i..][..k] == s[i..i + k]
    ensures s[i..][k..] == s[i + k..]
  {
  }

  predicate AllWhiteSpace(s: string) {
    forall i :: 0 <= i < |s| ==> IsWhiteSpace(s[i])
  }

  lemma {:induction false} TrimStartEmpty(s: string)
    ensures TrimStart(s) == [] <==> AllWhiteSpace(s)
    decreases |s|
  {
    if |s| > 0 && IsWhiteSpace(s[0]) {
      TrimStartEmpty(s[1..]);
      assert AllWhiteSpace(s[1..]) ==> AllWhiteSpace(s) by {
        if AllWhiteSpace(s[1..]) {
          forall i | 0 <= i < |s| ensures IsWhiteSpace(s[i]) {
            if i > 0 { assert s[i] == s[1..][i - 1]; }
          }
        }
      }
    }
  }

  /** TrimEnd of a string whose every character is white space is empty. */
  lemma {:induction false} TrimEndAllWhiteSpace(s: string)
    requires AllWhiteSpace(s)
    ensures TrimEnd(s) == []
    decreases |s|
  {
    if |s| > 0 {
      TrimEndAllWhiteSpace(s[..|s| - 1]);
    }
  }

  /**
   * `!s.trim()` holds exactly when the string is empty after trimming,
   * which is exactly when every character of it is white space.
   */
  lemma TrimEmptyIffBlank(s: string)
    ensures Trim(s) == [] <==> AllWhiteSpace(s)
  {
    TrimStartEmpty(s);
    var t := TrimStart(s);
    if AllWhiteSpace(s) {
      assert t == [];
    } else {
      assert t != [];
      assert !IsWhiteSpace(t[0]) by {
        if |s| > 0 && IsWhiteSpace(s[0]) {
          TrimStartFirst(s);
        }
      }
      assert TrimEnd(t) != [] by { TrimEndKeepsFirst(t); }
    }
  }

  /** A non-empty TrimStart result starts with a non-white-space character. */
  lemma {:induction false} TrimStartFirst(s: string)
    requires TrimStart(s) != []
    ensures !IsWhiteSpace(TrimStart(s)[0])
    decreases |s|
  {
    if |s| > 0 && IsWhiteSpace(s[0]) {
      TrimStartFirst(s[1..]);
    }
  }

  /** TrimEnd never removes a leading non-white-space character. */
  lemma {:induction false} TrimEndKeepsFirst(t: string)
    requires t != [] && !IsWhiteSpace(t[0])
    ensures TrimEnd(t) != []
    decreases |t|
  {
    if |t| > 1 && IsWhiteSpace(t[|t| - 1]) {
      TrimEndKeepsFirst(t[..|t| - 1]);
    }
  }
}

=== FILE: lifecycle.dfy ===
/**
 * Sequences of handler calls against one store, and what the handlers do
 * to an attendee together: the webhook is the only writer of
 * `paystack_ref`, status writes overwrite, redeliveries count again, and a
 * pending order reserves nothing.
 */
module Lifecycle {
  import opened Wrappers
  import opened Store
  import opened Paystack
  import opened Http
  import InitiatePayment
  import PaystackWebhook
  import VerifyPayment

  /** One call of a writing handler, with the inputs its environment supplies. */
  datatype Call =
    | Initiate(req: InitiatePayment.PaymentRequest, newId: string, insertFails: bool,
               gateway: InitializePayload -> InitializeReply)
    | Webhook(body: string, signature: string, parsed: Option<WebhookEvent>, faults: PaystackWebhook.Faults)

  function Step(db: Db, verify: (string, string) -> bool, call: Call): Db {
    match call
    case Initiate(req, newId, insertFails, gateway) => InitiatePayment.Handle(req, db, newId, insertFails, gateway).db
    case Webhook(body, signature, parsed, faults) => PaystackWebhook.Handle(body, signature, parsed, verify, db, faults).db
  }

  /** The store after the calls, in order. */
  function Run(db: Db, verify: (string, string) -> bool, calls: seq<Call>): Db
    decreases |calls|
  {
    if |calls| == 0 then db else Run(Step(db, verify, calls[0]), verify, calls[1..])
  }

  /** The gateway references stored on attendees. */
  function Refs(db: Db): set<string> {
    set id | id in db.attendees && db.attendees[id].paystackRef.Some? :: db.attendees[id].paystackRef.value
  }

  /** The reference a call carries, if it is a webhook delivery with charge data. */
  function CarriedRef(call: Call): set<string> {
    if call.Webhook? && call.parsed.Some? && call.parsed.value.data.Some? then {call.parsed.value.data.value.reference}
    else {}
  }

  function DeliveredRefs(calls: seq<Call>): set<string>
    decreases |calls|
  {
    if |calls| == 0 then {} else CarriedRef(calls[0]) + DeliveredRefs(calls[1..])
  }

  /** Opening a payment adds an attendee without a reference. */
  lemma InitiateKeepsRefs(req: InitiatePayment.PaymentRequest, db: Db, newId: string, insertFails: bool,
                          gateway: InitializePayload -> InitializeReply)
    ensures Refs(InitiatePayment.Handle(req, db, newId, insertFails, gateway).db) == Refs(db)
  {
    var db' := InitiatePayment.Handle(req, db, newId, insertFails, gateway).db;
    if db' != db {
      forall r | r in Refs(db') ensures r in Refs(db) {
        var id :| id in db'.attendees && db'.attendees[id].paystackRef == Some(r);
        assert id != newId;
      }
      forall r | r in Refs(db) ensures r in Refs(db') {
        var id :| id in db.attendees && db.attendees[id].paystackRef == Some(r);
        assert db'.attendees[id] == db.attendees[id];
      }
    }
  }

  /** A webhook delivery can only store the reference its own payload carries. */
  lemma WebhookRefs(body: string, signature: string, parsed: Option<WebhookEvent>,
                    verify: (string, string) -> bool, db: Db, faults: PaystackWebhook.Faults)
    ensures Refs(PaystackWebhook.Handle(body, signature, parsed, verify, db, faults).db)
            <= Refs(db) + CarriedRef(Webhook(body, signature, parsed, faults))
  {
    var db' := PaystackWebhook.Handle(body, signature, parsed, verify, db, faults).db;
    forall r | r in Refs(db') ensures r in Refs(db) + CarriedRef(Webhook(body, signature, parsed, faults)) {
      var id :| id in db'.attendees && db'.attendees[id].paystackRef == Some(r);
      if db'.attendees[id] != db.attendees[id] {
        assert PaystackWebhook.Authentic(body, signature, verify) && parsed.Some?;
        var logged := PaystackWebhook.AppendLog(db, parsed.value.event, body, faults);
        assert logged.attendees == db.attendees;
        if parsed.value.event == ChargeSuccess {
          assert PaystackWebhook.Handle(body, signature, parsed, verify, db, faults)
                 == PaystackWebhook.OnChargeSuccess(logged, parsed.value.data, faults);
        } else {
          assert parsed.value.event == ChargeFailed;
          assert PaystackWebhook.Handle(body, signature, parsed, verify, db, faults)
                 == PaystackWebhook.OnChargeFailed(logged, parsed.value.data, faults);
        }
      } else {
        assert r in Refs(db);
      }
    }
  }

  /**
   * Every reference stored after a run was stored before it or was carried
   * by one of the webhook deliveries in it.
   */
  lemma {:induction false} RefsComeFromWebhooks(db: Db, verify: (string, string) -> bool, calls: seq<Call>)
    ensures Refs(Run(db, verify, calls)) <= Refs(db) + DeliveredRefs(calls)
    decreases |calls|
  {
    if |calls| > 0 {
      var next := Step(db, verify, calls[0]);
      match calls[0] {
        case Initiate(req, newId, insertFails, gateway) =>
          InitiateKeepsRefs(req, db, newId, insertFails, gateway);
        case Webhook(body, signature, parsed, faults) =>
          WebhookRefs(body, signature, parsed, verify, db, faults);
      }
      RefsComeFromWebhooks(next, verify, calls[1..]);
    }
  }

  /**
   * Verifying a reference that no delivered webhook carried, against a
   * store that did not hold it, finds no attendee: with a gateway that
   * confirms the transaction the answer is 404, whether or not the lookup
   * itself fails.
   */
  lemma VerifyBeforeWebhookNotFound(db: Db, verify: (string, string) -> bool, calls: seq<Call>,
                                    reference: string, lookupFails: bool,
                                    gateway: string -> VerifyReply)
    requires reference != "" && gateway(reference).VerifyReply? && gateway(reference).status
    requires reference !in Refs(db) && reference !in DeliveredRefs(calls)
    ensures VerifyPayment.Handle(reference, Run(db, verify, calls), lookupFails, gateway).response.status == 404
  {
    var final := Run(db, verify, calls);
    RefsComeFromWebhooks(db, verify, calls);
    assert VerifyPayment.Matches(final, reference) == {};
  }

  /** A store in which no attendee has a reference yet. */
  predicate NoRefs(db: Db) {
    forall id :: id in db.attendees ==> db.attendees[id].paystackRef.None?
  }

  /** Any number of payment initiations on such a store leave verification at 404. */
  lemma InitiationsAloneNeverVerify(db: Db, verify: (string, string) -> bool, calls: seq<Call>,
                                    reference: string, lookupFails: bool,
                                    gateway: string -> VerifyReply)
    requires NoRefs(db)
    requires forall i :: 0 <= i < |calls| ==> calls[i].Initiate?
    requires reference != "" && gateway(reference).VerifyReply? && gateway(reference).status
    ensures VerifyPayment.Handle(reference, Run(db, verify, calls), lookupFails, gateway).response.status == 404
  {
    NoDelivered(calls);
    assert reference !in Refs(db);
    VerifyBeforeWebhookNotFound(db, verify, calls, reference, lookupFails, gateway);
  }

  lemma {:induction false} NoDelivered(calls: seq<Call>)
    requires forall i :: 0 <= i < |calls| ==> calls[i].Initiate?
    ensures DeliveredRefs(calls) == {}
    decreases |calls|
  {
    if |calls| > 0 {
      assert calls[0].Initiate?;
      NoDelivered(calls[1..]);
    }
  }

  /** An authentic `charge.success` delivery naming `id`, with a valid payment time. */
  predicate SuccessFor(body: string, signature: string, parsed: Option<WebhookEvent>,
                       verify: (string, string) -> bool, id: string)
  {
    && PaystackWebhook.Authentic(body, signature, verify)
    && parsed.Some? && parsed.value.event == ChargeSuccess
    && parsed.value.data.Some? && parsed.value.data.value.paidAt.Some?
    && PaystackWebhook.TargetAttendee(parsed.value.data.value) == Some(id)
  }

  /** An authentic `charge.failed` delivery naming `id`. */
  predicate FailureFor(body: string, signature: string, parsed: Option<WebhookEvent>,
                       verify: (string, string) -> bool, id: string)
  {
    && PaystackWebhook.Authentic(body, signature, verify)
    && parsed.Some? && parsed.value.event == ChargeFailed
    && parsed.value.data.Some?
    && PaystackWebhook.TargetAttendee(parsed.value.data.value) == Some(id)
  }

  /**
   * Status writes are unconditional: a `charge.failed` after a
   * `charge.success` turns the paid attendee into a failed one, with the
   * second reference, while the payment time of the success stays.
   */
  lemma FailureOverwritesSuccess(db: Db, verify: (string, string) -> bool, id: string,
                                 body1: string, sig1: string, ev1: Option<WebhookEvent>,
                                 body2: string, sig2: string, ev2: Option<WebhookEvent>)
    requires id in db.attendees
    requires SuccessFor(body1, sig1, ev1, verify, id)
    requires FailureFor(body2, sig2, ev2, verify, id)
    ensures var db1 := PaystackWebhook.Handle(body1, sig1, ev1, verify, db, PaystackWebhook.NoFaults).db;
            var db2 := PaystackWebhook.Handle(body2, sig2, ev2, verify, db1, PaystackWebhook.NoFaults).db;
            && db1.attendees[id].paymentStatus == Success
            && db2.attendees[id].paymentStatus == Failed
            && db2.attendees[id].paystackRef == Some(ev2.value.data.value.reference)
            && db2.attendees[id].paidAt == ev1.value.data.value.paidAt
  {
    var logged1 := PaystackWebhook.AppendLog(db, ev1.value.event, body1, PaystackWebhook.NoFaults);
    var db1 := PaystackWebhook.Handle(body1, sig1, ev1, verify, db, PaystackWebhook.NoFaults).db;
    assert db1 == PaystackWebhook.OnChargeSuccess(logged1, ev1.value.data, PaystackWebhook.NoFaults).db;
    var logged2 := PaystackWebhook.AppendLog(db1, ev2.value.event, body2, PaystackWebhook.NoFaults);
    assert PaystackWebhook.Handle(body2, sig2, ev2, verify, db1, PaystackWebhook.NoFaults)
           == PaystackWebhook.OnChargeFailed(logged2, ev2.value.data, PaystackWebhook.NoFaults);
  }

  /**
   * Nothing deduplicates deliveries: the same `charge.success` delivered
   * twice logs twice and adds its quantity to `tickets_sold` twice.
   */
  lemma RedeliveryCountsTwice(db: Db, verify: (string, string) -> bool, id: string,
                              body: string, signature: string, ev: Option<WebhookEvent>)
    requires id in db.attendees
    requires SuccessFor(body, signature, ev, verify, id)
    requires ev.value.data.value.metadata.value.eventId in db.events
    ensures var m := ev.value.data.value.metadata.value;
            var db1 := PaystackWebhook.Handle(body, signature, ev, verify, db, PaystackWebhook.NoFaults).db;
            var db2 := PaystackWebhook.Handle(body, signature, ev, verify, db1, PaystackWebhook.NoFaults).db;
            && |db2.paymentLogs| == |db.paymentLogs| + 2
            && db2.events[m.eventId].ticketsSold == db.events[m.eventId].ticketsSold + 2 * m.quantity
            && db2.attendees[id] == db1.attendees[id]
  {
    var m := ev.value.data.value.metadata.value;
    var logged1 := PaystackWebhook.AppendLog(db, ev.value.event, body, PaystackWebhook.NoFaults);
    var db1 := PaystackWebhook.Handle(body, signature, ev, verify, db, PaystackWebhook.NoFaults).db;
    assert db1 == PaystackWebhook.OnChargeSuccess(logged1, ev.value.data, PaystackWebhook.NoFaults).db;
    var logged2 := PaystackWebhook.AppendLog(db1, ev.value.event, body, PaystackWebhook.NoFaults);
    var db2 := PaystackWebhook.Handle(body, signature, ev, verify, db1, PaystackWebhook.NoFaults).db;
    assert db2 == PaystackWebhook.OnChargeSuccess(logged2, ev.value.data, PaystackWebhook.NoFaults).db;
  }

  /**
   * The metadata written at initiation is what the webhook reads: once the
   * gateway echoes it in an authentic `charge.success`, the new attendee is
   * paid and its quantity is counted against its event.
   */
  lemma InitiationThenSuccess(req: InitiatePayment.PaymentRequest, db: Db, newId: string,
                              gateway: InitializePayload -> InitializeReply,
                              verify: (string, string) -> bool, body: string, signature: string,
                              reference: string, paidAt: int)
    requires InitiatePayment.Admissible(req, db) && newId !in db.attendees && newId != ""
    requires PaystackWebhook.Authentic(body, signature, verify)
    ensures var o := InitiatePayment.Handle(req, db, newId, false, gateway);
            var ev := WebhookEvent(ChargeSuccess, Some(ChargeData(reference, Some(paidAt), Some(o.gatewayCall.value.metadata))));
            var db2 := PaystackWebhook.Handle(body, signature, Some(ev), verify, o.db, PaystackWebhook.NoFaults).db;
            && db2.attendees[newId].paymentStatus == Success
            && db2.attendees[newId].paystackRef == Some(reference)
            && db2.attendees[newId].amountPaid == req.quantity * db.events[req.eventId].ticketPrice
            && db2.events[req.eventId].ticketsSold == db.events[req.eventId].ticketsSold + req.quantity
  {
    var o := InitiatePayment.Handle(req, db, newId, false, gateway);
    var ev := WebhookEvent(ChargeSuccess, Some(ChargeData(reference, Some(paidAt), Some(o.gatewayCall.value.metadata))));
    var logged := PaystackWebhook.AppendLog(o.db, ev.event, body, PaystackWebhook.NoFaults);
    assert PaystackWebhook.Handle(body, signature, Some(ev), verify, o.db, PaystackWebhook.NoFaults)
           == PaystackWebhook.OnChargeSuccess(logged, ev.data, PaystackWebhook.NoFaults);
  }

  /**
   * A pending order reserves no capacity: after one admissible order is
   * inserted, a second one is admissible exactly when it was before.
   */
  lemma PendingReservesNothing(req: InitiatePayment.PaymentRequest, db: Db, newId: string,
                               gateway: InitializePayload -> InitializeReply,
                               other: InitiatePayment.PaymentRequest)
    ensures var db' := InitiatePayment.Handle(req, db, newId, false, gateway).db;
            InitiatePayment.Admissible(other, db') <==> InitiatePayment.Admissible(other, db)
  {
  }

  /**
   * Capacity can be exceeded: two orders that each fit the remaining
   * capacity are both accepted, and once both are paid `tickets_sold` is
   * above `total_tickets`.
   */
  lemma Oversell(db: Db, verify: (string, string) -> bool,
                 req1: InitiatePayment.PaymentRequest, id1: string,
                 req2: InitiatePayment.PaymentRequest, id2: string,
                 gateway: InitializePayload -> InitializeReply,
                 body: string, signature: string, ref1: string, ref2: string, paidAt: int)
    requires InitiatePayment.Admissible(req1, db) && InitiatePayment.Admissible(req2, db)
    requires req1.eventId == req2.eventId
    requires db.events[req1.eventId].ticketsSold + req1.quantity + req2.quantity > db.events[req1.eventId].totalTickets
    requires id1 != "" && id2 != "" && id1 != id2 && id1 !in db.attendees && id2 !in db.attendees
    requires PaystackWebhook.Authentic(body, signature, verify)
    ensures var o1 := InitiatePayment.Handle(req1, db, id1, false, gateway);
            var o2 := InitiatePayment.Handle(req2, o1.db, id2, false, gateway);
            var ev1 := WebhookEvent(ChargeSuccess, Some(ChargeData(ref1, Some(paidAt), Some(o1.gatewayCall.value.metadata))));
            var ev2 := WebhookEvent(ChargeSuccess, Some(ChargeData(ref2, Some(paidAt), Some(o2.gatewayCall.value.metadata))));
            var db3 := PaystackWebhook.Handle(body, signature, Some(ev1), verify, o2.db, PaystackWebhook.NoFaults).db;
            var db4 := PaystackWebhook.Handle(body, signature, Some(ev2), verify, db3, PaystackWebhook.NoFaults).db;
            db4.events[req1.eventId].ticketsSold > db4.events[req1.eventId].totalTickets
  {
    var o1 := InitiatePayment.Handle(req1, db, id1, false, gateway);
    PendingReservesNothing(req1, db, id1, gateway, req2);
    var o2 := InitiatePayment.Handle(req2, o1.db, id2, false, gateway);
    var ev1 := WebhookEvent(ChargeSuccess, Some(ChargeData(ref1, Some(paidAt), Some(o1.gatewayCall.value.metadata))));
    var ev2 := WebhookEvent(ChargeSuccess, Some(ChargeData(ref2, Some(paidAt), Some(o2.gatewayCall.value.metadata))));
    var l3 := PaystackWebhook.AppendLog(o2.db, ev1.event, body, PaystackWebhook.NoFaults);
    var db3 := PaystackWebhook.Handle(body, signature, Some(ev1), verify, o2.db, PaystackWebhook.NoFaults).db;
    assert db3 == PaystackWebhook.OnChargeSuccess(l3, ev1.data, PaystackWebhook.NoFaults).db;
    var l4 := PaystackWebhook.AppendLog(db3, ev2.event, body, PaystackWebhook.NoFaults);
    assert PaystackWebhook.Handle(body, signature, Some(ev2), verify, db3, PaystackWebhook.NoFaults).db
           == PaystackWebhook.OnChargeSuccess(l4, ev2.data, PaystackWebhook.NoFaults).db;
  }
}

=== FILE: partners_section.dfy ===
/**
 * The partners carousel: a row of logos, each a quarter of the viewport
 * wide, shifted left by 25% per step, with next and previous buttons that
 * wrap around.
 */
module PartnersSection {
  import Js

  const Partners: seq<string> :=
    ["BellaNaija", "British American Tobacco", "Audiomack", "Sterling", "Partner 5", "Partner 6"]

  /** Logos in view at once (`w-1/4`). */
  const VisibleCount: int := 4

  /** Percentage the row moves per step (`currentIndex * 25`). */
  const StepPercent: int := 25

  /** The modulus the buttons wrap at, as written: `Math.max(1, partners.length - 4)`. */
  function PositionsAsWritten(n: int): (m: int)
    ensures m >= 1
  {
    Js.Max(1, n - VisibleCount)
  }

  /** The number of distinct windows of four consecutive logos, at least one. */
  function Positions(n: int): (m: int)
    ensures m >= 1
    ensures n >= VisibleCount ==> m + VisibleCount - 1 == n
  {
    Js.Max(1, n - VisibleCount + 1)
  }

  /** `nextSlide`: one step forward, wrapping to the first position. */
  function Next(prev: int, m: int): (r: int)
    requires m >= 1
    ensures 0 <= prev < m ==> r == (if prev == m - 1 then 0 else prev + 1)
  {
    Js.Rem(prev + 1, m)
  }

  /** `prevSlide`: one step back, wrapping to the last position. */
  function Prev(prev: int, m: int): (r: int)
    requires m >= 1
    ensures 0 <= prev < m ==> r == (if prev == 0 then m - 1 else prev - 1)
  {
    Js.Rem(prev - 1 + m, m)
  }

  /** The row's shift in percent of its width. */
  function Offset(index: int): int { index * StepPercent }

  /** Whether logo `j` is in view when the row sits at `index`. */
  predicate InView(index: int, j: int) {
    index <= j < index + VisibleCount
  }

  lemma PrevUndoesNext(i: int, m: int)
    requires 0 <= i < m
    ensures Prev(Next(i, m), m) == i
  {
  }

  lemma NextUndoesPrev(i: int, m: int)
    requires 0 <= i < m
    ensures Next(Prev(i, m), m) == i
  {
  }

  datatype Press = NextPress | PrevPress

  /** The position after a sequence of button presses. */
  function Slide(i: int, m: int, presses: seq<Press>): int
    requires m >= 1
    decreases |presses|
  {
    if |presses| == 0 then i
    else
      var j := if presses[0] == NextPress then Next(i, m) else Prev(i, m);
      Slide(j, m, presses[1..])
  }

  /** From a position in range, every sequence of presses stays in range. */
  lemma {:induction false} SlideInRange(i: int, m: int, presses: seq<Press>)
    requires 0 <= i < m
    ensures 0 <= Slide(i, m, presses) < m
    decreases |presses|
  {
    if |presses| > 0 {
      var j := if presses[0] == NextPress then Next(i, m) else Prev(i, m);
      SlideInRange(j, m, presses[1..]);
    }
  }

  function Forward(k: nat): seq<Press> { seq(k, _ => NextPress) }

  /** Presses apply one after another. */
  lemma {:induction false} SlideAppend(i: int, m: int, a: seq<Press>, b: seq<Press>)
    requires m >= 1
    ensures Slide(i, m, a + b) == Slide(Slide(i, m, a), m, b)
    decreases |a|
  {
    if |a| == 0 {
      assert a + b == b;
    } else {
      var j := if a[0] == NextPress then Next(i, m) else Prev(i, m);
      assert (a + b)[1..] == a[1..] + b;
      SlideAppend(j, m, a[1..], b);
    }
  }

  /** k presses of next move the carousel k positions on, wrapping to 0 at the end. */
  lemma {:induction false} ForwardRotates(i: int, m: int, k: nat)
    requires 0 <= i < m && i + k <= m
    ensures Slide(i, m, Forward(k)) == if i + k == m then 0 else i + k
    decreases k
  {
    if k > 0 {
      assert Forward(k)[1..] == Forward(k - 1);
      if i + 1 < m {
        ForwardRotates(i + 1, m, k - 1);
      } else {
        assert k == 1;
      }
    }
  }

  /** After as many presses of next as there are positions the carousel is back where it started. */
  lemma FullCycle(i: int, m: int)
    requires 0 <= i < m
    ensures Slide(i, m, Forward(m)) == i
  {
    assert Forward(m) == Forward(m - i) + Forward(i);
    SlideAppend(i, m, Forward(m - i), Forward(i));
    ForwardRotates(i, m, m - i);
    ForwardRotates(0, m, i);
  }

  /** The row never shifts by more than the last position's offset. */
  lemma OffsetBounded(i: int, m: int, presses: seq<Press>)
    requires 0 <= i < m
    ensures 0 <= Offset(Slide(i, m, presses)) <= (m - 1) * StepPercent
  {
    SlideInRange(i, m, presses);
  }

  /** With the six partners the buttons, as written, toggle between two positions. */
  lemma TwoPositionsAsWritten()
    ensures PositionsAsWritten(|Partners|) == 2
    ensures Next(0, 2) == 1 && Next(1, 2) == 0 && Prev(0, 2) == 1 && Prev(1, 2) == 0
    ensures Offset(1) == StepPercent
  {
  }

  /**
   * As written, the last partner never comes into view: from the starting
   * position 0, no sequence of presses reaches a window holding logo 5.
   */
  lemma LastPartnerHiddenAsWritten(presses: seq<Press>)
    ensures !InView(Slide(0, PositionsAsWritten(|Partners|), presses), |Partners| - 1)
  {
    SlideInRange(0, PositionsAsWritten(|Partners|), presses);
  }

  /**
   * With one position per window every logo comes into view after enough
   * presses of next from the starting position, and no press scrolls past the
   * last logo.
   */
  lemma EveryPartnerReachable(n: int, j: int)
    requires 0 <= j < n
    ensures var k := Js.Max(0, j - VisibleCount + 1);
            InView(Slide(0, Positions(n), Forward(k)), j)
  {
    var k := Js.Max(0, j - VisibleCount + 1);
    assert k < Positions(n);
    ForwardRotates(0, Positions(n), k);
  }

  lemma NoBlankSlots(n: int, presses: seq<Press>)
    requires n >= VisibleCount
    ensures Slide(0, Positions(n), presses) + VisibleCount <= n
  {
    SlideInRange(0, Positions(n), presses);
  }
}

=== FILE: paystack.dfy ===
/**
 * The shapes exchanged with the Paystack payment gateway. The gateway itself
 * (HTTP calls, HMAC signatures) is outside the model: handlers receive it as
 * function parameters.
 */
module Paystack {
  import opened Wrappers

  /** The metadata attached to a transaction when it is initialised. */
  datatype Metadata = Metadata(attendeeId: string, eventId: string, quantity: int)

  /** The body of a transaction initialisation request. */
  datatype InitializePayload = InitializePayload(email: string, amount: int, metadata: Metadata)

  /** The gateway's answer to an initialisation: thrown (HTTP error) or a reply. */
  datatype InitializeReply =
    | InitializeThrew
    | InitializeReply(status: bool, authorizationUrl: string, reference: string)

  /** The `data` part of a transaction verification reply. */
  datatype Transaction = Transaction(status: string, amount: int, paidAt: string)

  /** The gateway's answer to a verification: thrown (HTTP error) or a reply. */
  datatype VerifyReply =
    | VerifyThrew
    | VerifyReply(status: bool, transaction: Transaction)

  /**
   * The `data` of a webhook event. `paidAt` is the instant `data.paid_at`
   * denotes in milliseconds, or None when it is not a valid date.
   */
  datatype ChargeData = ChargeData(reference: string, paidAt: Option<int>, metadata: Option<Metadata>)

  /** A parsed webhook body; `data` is None when the payload has none. */
  datatype WebhookEvent = WebhookEvent(event: string, data: Option<ChargeData>)

  const ChargeSuccess: string := "charge.success"
  const ChargeFailed: string := "charge.failed"
}

=== FILE: paystack_webhook.dfy ===
/**
 * `POST /api/paystack-webhook`: checks the gateway's signature, logs every
 * authenticated event, and on `charge.success` / `charge.failed` overwrites
 * the attendee named in the metadata; a success also adds the metadata's
 * quantity to the event's `tickets_sold`.
 */
module PaystackWebhook {
  import opened Wrappers
  import opened Store
  import opened Paystack
  import opened Http

  /**
   * Which store calls report an error: the log insert, the attendee update
   * and the `increment_tickets_sold` call.
   */
  datatype Faults = Faults(logInsert: bool, attendeeUpdate: bool, increment: bool)

  const NoFaults: Faults := Faults(false, false, false)

  datatype Outcome = Outcome(response: Response, db: Db)

  /** The attendee a charge event names, if it names one (a truthy `metadata.attendeeId`). */
  function TargetAttendee(data: ChargeData): Option<string> {
    if data.metadata.Some? && data.metadata.value.attendeeId != "" then Some(data.metadata.value.attendeeId)
    else None
  }

  /** The insert into `payment_logs`; its error is not checked, so a failed insert is skipped. */
  function AppendLog(db: Db, eventType: string, body: string, faults: Faults): (r: Db)
    ensures r.events == db.events && r.attendees == db.attendees
    ensures !faults.logInsert ==> r.paymentLogs == db.paymentLogs + [PaymentLog(eventType, body)]
    ensures faults.logInsert ==> r.paymentLogs == db.paymentLogs
  {
    if faults.logInsert then db else db.(paymentLogs := db.paymentLogs + [PaymentLog(eventType, body)])
  }

  /**
   * `increment_tickets_sold(event_id, quantity)`: adds the quantity to the
   * event's `tickets_sold`, with no capacity or status check. The database
   * function's body is not part of this model; this is its evident effect.
   */
  function IncrementTicketsSold(db: Db, eventId: string, quantity: int): (r: Db)
    ensures r.attendees == db.attendees && r.paymentLogs == db.paymentLogs
    ensures r.events.Keys == db.events.Keys
    ensures eventId in db.events ==>
              r.events[eventId] == db.events[eventId].(ticketsSold := db.events[eventId].ticketsSold + quantity)
    ensures forall e :: e in db.events && e != eventId ==> r.events[e] == db.events[e]
  {
    if eventId in db.events then
      var e := db.events[eventId];
      db.(events := db.events[eventId := e.(ticketsSold := e.ticketsSold + quantity)])
    else db
  }

  function MarkSucceeded(reference: string, paidAt: int): Attendee -> Attendee {
    (a: Attendee) => a.(paymentStatus := Success, paystackRef := Some(reference), paidAt := Some(paidAt))
  }

  function MarkFailed(reference: string): Attendee -> Attendee {
    (a: Attendee) => a.(paymentStatus := Failed, paystackRef := Some(reference))
  }

  /**
   * The `charge.success` branch, entered after the log row is written. A
   * missing `data` throws (500); a missing attendee id is a 400; an invalid
   * `paid_at` throws when it is formatted (500); an update error is a 500;
   * an increment error is ignored.
   */
  function OnChargeSuccess(db: Db, data: Option<ChargeData>, faults: Faults): (o: Outcome)
    ensures data.None? ==> o == Outcome(Fail(500, "Internal server error"), db)
    ensures data.Some? && TargetAttendee(data.value).None? ==>
              o == Outcome(Fail(400, "Missing attendee ID in metadata"), db)
    ensures data.Some? && TargetAttendee(data.value).Some? && data.value.paidAt.None? ==>
              o == Outcome(Fail(500, "Internal server error"), db)
    ensures data.Some? && TargetAttendee(data.value).Some? && data.value.paidAt.Some? && faults.attendeeUpdate ==>
              o == Outcome(Fail(500, "Failed to update attendee"), db)
    ensures o.response.status == 200 <==>
              data.Some? && TargetAttendee(data.value).Some? && data.value.paidAt.Some? && !faults.attendeeUpdate
    ensures o.response.status == 200 ==> o.response.body == Received
    ensures o.db.paymentLogs == db.paymentLogs
    ensures o.db.attendees.Keys == db.attendees.Keys && o.db.events.Keys == db.events.Keys
    // on success the named attendee is overwritten whatever its status was
    ensures o.response.status == 200 && data.value.metadata.value.attendeeId in db.attendees ==>
              var id := data.value.metadata.value.attendeeId;
              o.db.attendees[id]
              == db.attendees[id].(paymentStatus := Success, paystackRef := Some(data.value.reference),
                                   paidAt := data.value.paidAt)
    ensures forall id :: id in db.attendees && (o.response.status != 200 || id != data.value.metadata.value.attendeeId)
              ==> o.db.attendees[id] == db.attendees[id]
    // and the metadata's quantity is added to the metadata's event unless the increment fails
    ensures o.response.status == 200 && !faults.increment && data.value.metadata.value.eventId in db.events ==>
              var m := data.value.metadata.value;
              o.db.events[m.eventId].ticketsSold == db.events[m.eventId].ticketsSold + m.quantity
    ensures forall e :: e in db.events ==>
              && o.db.events[e].totalTickets == db.events[e].totalTickets
              && o.db.events[e].ticketPrice == db.events[e].ticketPrice
    ensures forall e :: e in db.events && (o.response.status != 200 || faults.increment || e != data.value.metadata.value.eventId)
              ==> o.db.events[e] == db.events[e]
  {
    match data
    case None => Outcome(Fail(500, "Internal server error"), db)
    case Some(d) =>
      if TargetAttendee(d).None? then Outcome(Fail(400, "Missing attendee ID in metadata"), db)
      else if d.paidAt.None? then Outcome(Fail(500, "Internal server error"), db)
      else if faults.attendeeUpdate then Outcome(Fail(500, "Failed to update attendee"), db)
      else
        var m := d.metadata.value;
        var updated := UpdateAttendee(db, m.attendeeId, MarkSucceeded(d.reference, d.paidAt.value));
        var counted := if faults.increment then updated else IncrementTicketsSold(updated, m.eventId, m.quantity);
        Outcome(Ok(Received), counted)
  }

  /**
   * The `charge.failed` branch, entered after the log row is written. A
   * missing `data` throws (500); otherwise the answer is 200 whether or not
   * an attendee was named and whether or not the update succeeded.
   */
  function OnChargeFailed(db: Db, data: Option<ChargeData>, faults: Faults): (o: Outcome)
    ensures data.None? ==> o == Outcome(Fail(500, "Internal server error"), db)
    ensures data.Some? ==> o.response == Ok(Received)
    ensures o.db.events == db.events && o.db.paymentLogs == db.paymentLogs
    ensures o.db.attendees.Keys == db.attendees.Keys
    ensures data.Some? && TargetAttendee(data.value).Some? && !faults.attendeeUpdate
            && TargetAttendee(data.value).value in db.attendees ==>
              var id := TargetAttendee(data.value).value;
              o.db.attendees[id]
              == db.attendees[id].(paymentStatus := Failed, paystackRef := Some(data.value.reference))
    ensures forall id :: id in db.attendees && (data.None? || TargetAttendee(data.value) != Some(id) || faults.attendeeUpdate)
              ==> o.db.attendees[id] == db.attendees[id]
  {
    match data
    case None => Outcome(Fail(500, "Internal server error"), db)
    case Some(d) =>
      match TargetAttendee(d)
      case None => Outcome(Ok(Received), db)
      case Some(id) =>
        var updated := if faults.attendeeUpdate then db else UpdateAttendee(db, id, MarkFailed(d.reference));
        Outcome(Ok(Received), updated)
  }

  /** The signature header is present and the predicate accepts it for this body. */
  predicate Authentic(body: string, signature: string, verify: (string, string) -> bool) {
    signature != "" && verify(body, signature)
  }

  /**
   * Handles one delivery. `signature` is the `x-paystack-signature` header
   * ("" when absent), `verify` the signature predicate, and `parsed` the
   * result of parsing `body` (None when it is not JSON).
   */
  function Handle(body: string, signature: string, parsed: Option<WebhookEvent>,
                  verify: (string, string) -> bool, db: Db, faults: Faults): (o: Outcome)
    // the signature gate: nothing is logged or changed
    ensures signature == "" ==> o == Outcome(Fail(400, "Missing signature"), db)
    ensures signature != "" && !verify(body, signature) ==> o == Outcome(Fail(401, "Invalid signature"), db)
    ensures Authentic(body, signature, verify) && parsed.None? ==> o == Outcome(Fail(500, "Internal server error"), db)
    ensures !Authentic(body, signature, verify) || parsed.None? ==> o.db == db
    // an authentic event is logged exactly once, before any branching
    ensures Authentic(body, signature, verify) && parsed.Some? && !faults.logInsert ==>
              o.db.paymentLogs == db.paymentLogs + [PaymentLog(parsed.value.event, body)]
    ensures faults.logInsert ==> o.db.paymentLogs == db.paymentLogs
    // events other than the two charge events only log
    ensures Authentic(body, signature, verify) && parsed.Some?
            && parsed.value.event != ChargeSuccess && parsed.value.event != ChargeFailed ==>
              o.response == Ok(Received) && o.db.attendees == db.attendees && o.db.events == db.events
    // the two charge events are answered by their handlers, on the store with the log row added
    ensures Authentic(body, signature, verify) && parsed.Some? && parsed.value.event == ChargeSuccess ==>
              o == OnChargeSuccess(AppendLog(db, ChargeSuccess, body, faults), parsed.value.data, faults)
    ensures Authentic(body, signature, verify) && parsed.Some? && parsed.value.event == ChargeFailed ==>
              o == OnChargeFailed(AppendLog(db, ChargeFailed, body, faults), parsed.value.data, faults)
    // no attendee row or event is created or dropped, and no event's capacity or price changes
    ensures o.db.attendees.Keys == db.attendees.Keys && o.db.events.Keys == db.events.Keys
    ensures forall e :: e in db.events ==>
              && o.db.events[e].totalTickets == db.events[e].totalTickets
              && o.db.events[e].ticketPrice == db.events[e].ticketPrice
  {
    if signature == "" then Outcome(Fail(400, "Missing signature"), db)
    else if !verify(body, signature) then Outcome(Fail(401, "Invalid signature"), db)
    else
      match parsed
      case None => Outcome(Fail(500, "Internal server error"), db)
      case Some(event) =>
        var logged := AppendLog(db, event.event, body, faults);
        if event.event == ChargeSuccess then OnChargeSuccess(logged, event.data, faults)
        else if event.event == ChargeFailed then OnChargeFailed(logged, event.data, faults)
        else Outcome(Ok(Received), logged)
  }
}

=== FILE: radix.dfy ===
/**
 * Positional numerals as `Number.prototype.toString(radix)` renders
 * non-negative integers (lower-case digits) and `parseInt` reads them back
 * (either case).
 */
module Radix {
  import opened Wrappers
  import Js

  const DigitChars: string := "0123456789abcdefghijklmnopqrstuvwxyz"

  predicate ValidBase(base: int) { 2 <= base <= 36 }

  function DigitChar(d: nat): (c: char)
    requires d < 36
    ensures !Js.IsLowerAscii(c) <==> d < 10
  {
    DigitChars[d]
  }

  /** The value of a digit character in either case, or None. */
  function DigitValue(c: char): (r: Option<nat>)
    ensures r.Some? ==> r.value < 36
  {
    if '0' <= c <= '9' then Some(c as int - '0' as int)
    else if 'a' <= c <= 'z' then Some(c as int - 'a' as int + 10)
    else if 'A' <= c <= 'Z' then Some(c as int - 'A' as int + 10)
    else None
  }

  predicate IsDigit(c: char, base: int) {
    DigitValue(c).Some? && DigitValue(c).value < base
  }

  predicate AllDigits(s: string, base: int) {
    forall i :: 0 <= i < |s| ==> IsDigit(s[i], base)
  }

  lemma DigitValueOfChar(d: nat)
    requires d < 36
    ensures DigitValue(DigitChar(d)) == Some(d)
  {
  }

  /** Upper-casing a digit character keeps its value. */
  lemma DigitValueUpper(c: char)
    ensures DigitValue(Js.UpperChar(c)) == DigitValue(c)
  {
  }

  /** `n.toString(base)` for n >= 0. */
  function ToDigits(n: nat, base: int): (s: string)
    requires ValidBase(base)
    ensures |s| >= 1
    ensures AllDigits(s, base)
    decreases n
  {
    if n < base then
      DigitValueOfChar(n);
      [DigitChar(n)]
    else
      DivMod(n, base);
      var d := n % base;
      DigitValueOfChar(d);
      var p := ToDigits(n / base, base);
      assert forall i :: 0 <= i < |p| ==> (p + [DigitChar(d)])[i] == p[i];
      p + [DigitChar(d)]
  }

  /** The value of a string of digits, most significant first. */
  function Value(s: string, base: int): nat
    requires ValidBase(base)
    requires AllDigits(s, base)
    decreases |s|
  {
    if |s| == 0 then 0
    else
      assert AllDigits(s[..|s| - 1], base);
      Value(s[..|s| - 1], base) * base + DigitValue(s[|s| - 1]).value
  }

  /**
   * Reads a whole numeral: a non-empty string of digits of the base, with no
   * sign; None for anything else. On such strings it agrees with
   * `parseInt(s, base)`, which would also accept a sign and stop at the
   * first non-digit.
   */
  function FromDigits(s: string, base: int): Option<nat>
    requires ValidBase(base)
  {
    if |s| > 0 && AllDigits(s, base) then Some(Value(s, base)) else None
  }

  /** Appending a digit multiplies the value by the base and adds the digit. */
  lemma ValueSnoc(p: string, c: char, base: int)
    requires ValidBase(base) && AllDigits(p, base) && IsDigit(c, base)
    ensures AllDigits(p + [c], base)
    ensures Value(p + [c], base) == Value(p, base) * base + DigitValue(c).value
  {
    assert (p + [c])[..|p|] == p;
  }

  lemma ToDigitsUnfold(n: nat, base: int)
    requires ValidBase(base) && n >= base
    ensures ToDigits(n, base) == ToDigits(n / base, base) + [DigitChar(n % base)]
  {
  }

  lemma DivMod(n: nat, base: int)
    requires ValidBase(base)
    ensures (n / base) * base + n % base == n
    ensures 0 <= n % base < base && 0 <= n / base
    ensures n >= base ==> n / base < n
  {
  }

  /** Reading back a rendered numeral gives the number. */
  lemma {:induction false} FromToDigits(n: nat, base: int)
    requires ValidBase(base)
    ensures FromDigits(ToDigits(n, base), base) == Some(n)
    decreases n
  {
    var s := ToDigits(n, base);
    if n < base {
      DigitValueOfChar(n);
      ValueSnoc([], DigitChar(n), base);
      assert s == [] + [DigitChar(n)];
    } else {
      var q, d := n / base, n % base;
      DivMod(n, base);
      FromToDigits(q, base);
      DigitValueOfChar(d);
      var prefix := ToDigits(q, base);
      ToDigitsUnfold(n, base);
      ValueSnoc(prefix, DigitChar(d), base);
      assert Value(prefix, base) == q;
      assert Value(s, base) == n;
    }
  }

  /** The value of a numeral does not depend on the case of its letters. */
  lemma {:induction false} ValueUpper(s: string, base: int)
    requires ValidBase(base) && AllDigits(s, base)
    ensures AllDigits(Js.UpperCase(s), base)
    ensures Value(Js.UpperCase(s), base) == Value(s, base)
    decreases |s|
  {
    var u := Js.UpperCase(s);
    forall i | 0 <= i < |s| ensures IsDigit(u[i], base) {
      DigitValueUpper(s[i]);
    }
    if |s| > 0 {
      assert AllDigits(s[..|s| - 1], base);
      ValueUpper(s[..|s| - 1], base);
      assert u[..|u| - 1] == Js.UpperCase(s[..|s| - 1]);
      DigitValueUpper(s[|s| - 1]);
    }
  }

  /** `parseInt` reads an upper-cased rendering back to the same number. */
  lemma FromUpperDigits(n: nat, base: int)
    requires ValidBase(base)
    ensures FromDigits(Js.UpperCase(ToDigits(n, base)), base) == Some(n)
  {
    FromToDigits(n, base);
    ValueUpper(ToDigits(n, base), base);
  }

  /** `String(n)` for an integer: decimal digits with a leading '-' when negative. */
  function IntText(n: int): (s: string)
    ensures |s| >= 1
    ensures n >= 0 ==> FromDigits(s, 10) == Some(n)
    ensures n < 0 ==> FromDigits(s[1..], 10) == Some(-n)
  {
    if n < 0 then
      FromToDigits(-n, 10);
      assert ("-" + ToDigits(-n, 10))[1..] == ToDigits(-n, 10);
      "-" + ToDigits(-n, 10)
    else
      FromToDigits(n, 10);
      ToDigits(n, 10)
  }

  /**
   * The text starts with '-' exactly for a negative number, and what follows
   * the sign is the magnitude's own text.
   */
  lemma IntTextSign(n: int)
    ensures IntText(n)[0] == '-' <==> n < 0
    ensures n < 0 ==> IntText(n) == "-" + IntText(-n)
  {
    if n >= 0 {
      assert IsDigit(IntText(n)[0], 10);
    }
  }
}

=== FILE: store.dfy ===
/**
 * The record store the route handlers read and write: the `events` and
 * `attendees` tables keyed by id, and the append-only `payment_logs` table.
 */
module Store {
  import opened Wrappers

  datatype PaymentStatus = Pending | Success | Failed

  /** A row of `events`; amounts are integers in kobo. */
  datatype Event = Event(totalTickets: int, ticketsSold: int, ticketPrice: int)

  /** A row of `attendees` (its id is the key it is stored under). */
  datatype Attendee = Attendee(
    eventId: string,
    name: string,
    email: string,
    phone: string,
    ticketQuantity: int,
    amountPaid: int,
    paymentStatus: PaymentStatus,
    paystackRef: Option<string>,
    paidAt: Option<int>)

  /** A row of `payment_logs`: the event type and the payload as received. */
  datatype PaymentLog = PaymentLog(eventType: string, rawPayload: string)

  datatype Db = Db(events: map<string, Event>, attendees: map<string, Attendee>, paymentLogs: seq<PaymentLog>)

  /** The text the database stores for a payment status. */
  function StatusText(s: PaymentStatus): string {
    match s
    case Pending => "pending"
    case Success => "success"
    case Failed => "failed"
  }

  /**
   * `update(...).eq("id", id)` on `attendees`: the row with that id, if any,
   * is rewritten; matching no row is not an error and changes nothing.
   */
  function UpdateAttendee(db: Db, id: string, change: Attendee -> Attendee): (r: Db)
    ensures r.events == db.events && r.paymentLogs == db.paymentLogs
    ensures r.attendees.Keys == db.attendees.Keys
    ensures id in db.attendees ==> r.attendees[id] == change(db.attendees[id])
    ensures forall other :: other in db.attendees && other != id ==> r.attendees[other] == db.attendees[other]
  {
    if id in db.attendees then db.(attendees := db.attendees[id := change(db.attendees[id])]) else db
  }
}

=== FILE: text.dfy ===
/**
 * `Array.prototype.join` and `String.prototype.split` with a one-character
 * separator, and the round trip between them.
 */
module Text {

  /** `parts.join(sep)`: the empty array joins to the empty string. */
  function Join(parts: seq<string>, sep: char): (r: string)
    ensures |parts| == 1 ==> r == parts[0]
    decreases |parts|
  {
    if |parts| == 0 then []
    else if |parts| == 1 then parts[0]
    else parts[0] + [sep] + Join(parts[1..], sep)
  }

  /** `s.split(sep)`: always at least one piece, and no piece contains `sep`. */
  function Split(s: string, sep: char): (r: seq<string>)
    ensures |r| >= 1
    ensures forall i :: 0 <= i < |r| ==> sep !in r[i]
    decreases |s|
  {
    if |s| == 0 then [[]]
    else if s[0] == sep then [[]] + Split(s[1..], sep)
    else
      var rest := Split(s[1..], sep);
      [[s[0]] + rest[0]] + rest[1..]
  }

  /** How many times `c` occurs in `s`. */
  function Count(s: string, c: char): nat
    decreases |s|
  {
    if |s| == 0 then 0 else (if s[0] == c then 1 else 0) + Count(s[1..], c)
  }

  lemma {:induction false} CountConcat(a: string, b: string, c: char)
    ensures Count(a + b, c) == Count(a, c) + Count(b, c)
    decreases |a|
  {
    if |a| > 0 {
      assert (a + b)[1..] == a[1..] + b;
      CountConcat(a[1..], b, c);
    } else {
      assert a + b == b;
    }
  }

  lemma {:induction false} CountAbsent(s: string, c: char)
    ensures c !in s <==> Count(s, c) == 0
    decreases |s|
  {
    if |s| > 0 {
      CountAbsent(s[1..], c);
      assert s == [s[0]] + s[1..];
    }
  }

  /** A separator-free prefix followed by the separator splits off as one piece. */
  lemma {:induction false} SplitPrefix(p: string, sep: char, rest: string)
    requires sep !in p
    ensures Split(p + [sep] + rest, sep) == [p] + Split(rest, sep)
    decreases |p|
  {
    if |p| == 0 {
      assert p + [sep] + rest == [sep] + rest;
      assert ([sep] + rest)[1..] == rest;
    } else {
      assert (p + [sep] + rest)[1..] == p[1..] + [sep] + rest;
      SplitPrefix(p[1..], sep, rest);
      assert [p[0]] + p[1..] == p;
    }
  }

  /** A separator-free string splits into itself. */
  lemma {:induction false} SplitWhole(p: string, sep: char)
    requires sep !in p
    ensures Split(p, sep) == [p]
    decreases |p|
  {
    if |p| > 0 {
      SplitWhole(p[1..], sep);
      assert [p[0]] + p[1..] == p;
    }
  }

  /**
   * Splitting a join gives the parts back, provided no part contains the
   * separator and there is at least one part.
   */
  lemma {:induction false} SplitJoin(parts: seq<string>, sep: char)
    requires |parts| >= 1
    requires forall i :: 0 <= i < |parts| ==> sep !in parts[i]
    ensures Split(Join(parts, sep), sep) == parts
    decreases |parts|
  {
    if |parts| == 1 {
      SplitWhole(parts[0], sep);
    } else {
      SplitJoin(parts[1..], sep);
      SplitPrefix(parts[0], sep, Join(parts[1..], sep));
      assert [parts[0]] + parts[1..] == parts;
    }
  }

  /** Sum of the occurrences of `c` over all parts. */
  function CountAll(parts: seq<string>, c: char): nat
    decreases |parts|
  {
    if |parts| == 0 then 0 else Count(parts[0], c) + CountAll(parts[1..], c)
  }

  /**
   * A join holds exactly one separator between consecutive parts, plus
   * whatever separators the parts themselves contain.
   */
  lemma {:induction false} CountJoin(parts: seq<string>, sep: char)
    requires |parts| >= 1
    ensures Count(Join(parts, sep), sep) == |parts| - 1 + CountAll(parts, sep)
    decreases |parts|
  {
    if |parts| == 1 {
      assert CountAll(parts[1..], sep) == 0;
    } else {
      CountJoin(parts[1..], sep);
      CountConcat(parts[0] + [sep], Join(parts[1..], sep), sep);
      CountConcat(parts[0], [sep], sep);
      assert Count([sep], sep) == 1 by { assert [sep][1..] == []; }
    }
  }

  /** A join contains a character other than the separator only if some part does. */
  lemma {:induction false} JoinAbsent(parts: seq<string>, sep: char, c: char)
    requires c != sep
    requires forall i :: 0 <= i < |parts| ==> c !in parts[i]
    ensures c !in Join(parts, sep)
    decreases |parts|
  {
    if |parts| > 1 {
      JoinAbsent(parts[1..], sep, c);
    }
  }
}

=== FILE: ticket_checkout.dfy ===
/**
 * The checkout page: prices the selection from its own ticket table plus a
 * fixed service fee, keeps one name/email entry per ticket, and refuses to
 * send the payment request while any entry is blank.
 */
module TicketCheckout {
  import opened Wrappers
  import Js
  import TicketSelection

  datatype TicketType = TicketType(id: string, name: string, price: int)

  /** The checkout's ticket table; prices in kobo. */
  const TicketTypes: seq<TicketType> := [
    TicketType("rockstar-earlybird", "Rockstar - Earlybird", 750000),
    TicketType("legend-earlybird", "Legend - Earlybird", 2500000)
  ]

  /** 495.00 naira, in kobo. */
  const ServiceFee: int := 49500

  /** `ticketTypes.find((t) => t.id === id)`. */
  function FindType(id: string): (r: Option<TicketType>)
    ensures r.Some? ==> r.value in TicketTypes && r.value.id == id
    ensures r.None? ==> forall t :: t in TicketTypes ==> t.id != id
  {
    if id == TicketTypes[0].id then Some(TicketTypes[0])
    else if id == TicketTypes[1].id then Some(TicketTypes[1])
    else None
  }

  /** What one entry of the selection costs: nothing when its id is not in the table. */
  function LineAmount(entry: (string, int)): int {
    match FindType(entry.0)
    case Some(t) => t.price * entry.1
    case None => 0
  }

  ghost predicate NonNegative(sel: seq<(string, int)>) {
    forall i :: 0 <= i < |sel| ==> sel[i].1 >= 0
  }

  /** The `reduce` over the selection's entries, in order. */
  function Subtotal(sel: seq<(string, int)>): (r: int)
    ensures NonNegative(sel) ==> r >= 0
    decreases |sel|
  {
    if |sel| == 0 then 0
    else
      assert NonNegative(sel) ==> NonNegative(sel[..|sel| - 1]);
      Subtotal(sel[..|sel| - 1]) + LineAmount(sel[|sel| - 1])
  }

  /**
   * The sum of every quantity in the selection, whatever its id: a single
   * entry counts its own quantity, the total is never negative when no
   * quantity is, and zero exactly when every quantity is.
   */
  function TotalQuantity(sel: seq<(string, int)>): (r: int)
    ensures |sel| == 1 ==> r == sel[0].1
    ensures NonNegative(sel) ==> r >= 0
    ensures NonNegative(sel) ==> (r == 0 <==> forall i :: 0 <= i < |sel| ==> sel[i].1 == 0)
    decreases |sel|
  {
    if |sel| == 0 then 0
    else
      assert NonNegative(sel) ==> NonNegative(sel[..|sel| - 1]);
      assert forall i :: 0 <= i < |sel| - 1 ==> sel[..|sel| - 1][i] == sel[i];
      TotalQuantity(sel[..|sel| - 1]) + sel[|sel| - 1].1
  }

  /** The quantity selected under `id`. */
  function QuantityOf(sel: seq<(string, int)>, id: string): int
    decreases |sel|
  {
    if |sel| == 0 then 0
    else QuantityOf(sel[..|sel| - 1], id) + (if sel[|sel| - 1].0 == id then sel[|sel| - 1].1 else 0)
  }

  /** The total of two selections back to back is the sum of their totals. */
  lemma {:induction false} TotalQuantityConcat(a: seq<(string, int)>, b: seq<(string, int)>)
    ensures TotalQuantity(a + b) == TotalQuantity(a) + TotalQuantity(b)
    decreases |b|
  {
    if |b| == 0 {
      assert a + b == a;
    } else {
      var init := b[..|b| - 1];
      TotalQuantityConcat(a, init);
      assert (a + b)[..|a + b| - 1] == a + init;
    }
  }

  /** With no negative quantity, one id's share never exceeds the total. */
  lemma {:induction false} QuantityWithinTotal(sel: seq<(string, int)>, id: string)
    requires NonNegative(sel)
    ensures 0 <= QuantityOf(sel, id) <= TotalQuantity(sel)
    decreases |sel|
  {
    if |sel| > 0 {
      assert NonNegative(sel[..|sel| - 1]);
      QuantityWithinTotal(sel[..|sel| - 1], id);
    }
  }

  /** The amount shown as the order total. */
  function Total(sel: seq<(string, int)>): (r: int)
    ensures r - ServiceFee == Subtotal(sel)
    ensures NonNegative(sel) ==> r >= ServiceFee
  {
    Subtotal(sel) + ServiceFee
  }

  /**
   * The subtotal is each table price times the quantity selected under that
   * id; ids outside the table add nothing.
   */
  lemma {:induction false} SubtotalByType(sel: seq<(string, int)>)
    ensures Subtotal(sel) == TicketTypes[0].price * QuantityOf(sel, TicketTypes[0].id)
                           + TicketTypes[1].price * QuantityOf(sel, TicketTypes[1].id)
    decreases |sel|
  {
    if |sel| > 0 {
      SubtotalByType(sel[..|sel| - 1]);
    }
  }

  /** Every id outside the checkout's table, the selection page's "regular" among them. */
  predicate Unpriced(sel: seq<(string, int)>) {
    forall i :: 0 <= i < |sel| ==> FindType(sel[i].0).None?
  }

  lemma {:induction false} UnpricedQuantities(sel: seq<(string, int)>)
    requires Unpriced(sel)
    ensures QuantityOf(sel, TicketTypes[0].id) == 0 && QuantityOf(sel, TicketTypes[1].id) == 0
    decreases |sel|
  {
    if |sel| > 0 {
      UnpricedQuantities(sel[..|sel| - 1]);
    }
  }

  /** A selection of ids outside the table costs nothing beyond the fee. */
  lemma UnpricedSubtotal(sel: seq<(string, int)>)
    requires Unpriced(sel)
    ensures Subtotal(sel) == 0 && Total(sel) == ServiceFee
  {
    UnpricedQuantities(sel);
    SubtotalByType(sel);
  }

  lemma SelectionIdsUnpriced(sel: seq<(string, int)>)
    requires forall i :: 0 <= i < |sel| ==> sel[i].0 == TicketSelection.RegularId
    ensures Unpriced(sel)
  {
  }

  /**
   * What the selection page hands over is priced at nothing here: its only
   * id is not in this table, so the total is the service fee alone while
   * the quantity still counts every ticket.
   */
  lemma SelectionPageTicketsUnpriced(sel: TicketSelection.Quantities)
    requires forall i :: 0 <= i < |sel| ==> sel[i].0 == TicketSelection.RegularId
    ensures Subtotal(sel) == 0 && Total(sel) == ServiceFee
    ensures TotalQuantity(sel) == QuantityOf(sel, TicketSelection.RegularId)
  {
    SelectionIdsUnpriced(sel);
    UnpricedSubtotal(sel);
    AllOneId(sel, TicketSelection.RegularId);
  }

  lemma {:induction false} AllOneId(sel: seq<(string, int)>, id: string)
    requires forall i :: 0 <= i < |sel| ==> sel[i].0 == id
    ensures TotalQuantity(sel) == QuantityOf(sel, id)
    decreases |sel|
  {
    if |sel| > 0 {
      AllOneId(sel[..|sel| - 1], id);
    }
  }

  datatype AttendeeInfo = AttendeeInfo(name: string, email: string)

  datatype Field = Name | Email

  const BlankAttendee: AttendeeInfo := AttendeeInfo("", "")

  /** The initial attendee list: one blank entry per ticket counted. */
  method InitialAttendees(totalQuantity: int) returns (attendees: seq<AttendeeInfo>)
    ensures |attendees| == Js.Max(0, totalQuantity)
    ensures forall i :: 0 <= i < |attendees| ==> attendees[i] == BlankAttendee
  {
    attendees := [];
    var i := 0;
    while i < totalQuantity
      invariant 0 <= i
      invariant i <= Js.Max(0, totalQuantity)
      invariant |attendees| == i
      invariant forall j :: 0 <= j < i ==> attendees[j] == BlankAttendee
      decreases totalQuantity - i
    {
      attendees := attendees + [BlankAttendee];
      i := i + 1;
    }
  }

  function Read(a: AttendeeInfo, field: Field): string {
    match field
    case Name => a.name
    case Email => a.email
  }

  function Other(field: Field): Field {
    match field
    case Name => Email
    case Email => Name
  }

  /** `updateAttendee(index, field, value)`. */
  function UpdateAttendee(attendees: seq<AttendeeInfo>, index: int, field: Field, value: string): (r: seq<AttendeeInfo>)
    ensures |r| == |attendees|
    ensures forall i :: 0 <= i < |r| && i != index ==> r[i] == attendees[i]
    ensures 0 <= index < |r| ==>
              Read(r[index], field) == value && Read(r[index], Other(field)) == Read(attendees[index], Other(field))
  {
    seq(|attendees|, i requires 0 <= i < |attendees| =>
      if i == index then
        (match field
         case Name => attendees[i].(name := value)
         case Email => attendees[i].(email := value))
      else attendees[i])
  }

  /** `removeAttendee(index)`: the `filter` keeping every other position. */
  method RemoveAttendee(attendees: seq<AttendeeInfo>, index: int) returns (r: seq<AttendeeInfo>)
    ensures 0 <= index < |attendees| ==> r == attendees[..index] + attendees[index + 1..]
    ensures !(0 <= index < |attendees|) ==> r == attendees
    ensures |r| == if 0 <= index < |attendees| then |attendees| - 1 else |attendees|
  {
    r := [];
    var i := 0;
    while i < |attendees|
      invariant 0 <= i <= |attendees|
      invariant r == if 0 <= index < i then attendees[..index] + attendees[index + 1..i] else attendees[..i]
    {
      if i != index {
        r := r + [attendees[i]];
      }
      i := i + 1;
    }
    assert attendees[..|attendees|] == attendees;
  }

  /** `!a.name.trim() || !a.email.trim()`. */
  predicate Incomplete(a: AttendeeInfo) {
    Js.Trim(a.name) == [] || Js.Trim(a.email) == []
  }

  /** The JSON body the checkout posts. */
  datatype CheckoutBody = CheckoutBody(
    selectedTickets: seq<(string, int)>,
    attendees: seq<AttendeeInfo>,
    subtotal: int,
    serviceFee: int,
    total: int)

  datatype CheckoutResult = MissingInformation | RequestSent(body: CheckoutBody)

  /**
   * `handleCheckout`: no request while some entry's name or email is only
   * white space; otherwise the selection, the entries and the three amounts
   * are posted.
   */
  function HandleCheckout(sel: seq<(string, int)>, attendees: seq<AttendeeInfo>): (r: CheckoutResult)
    ensures r.RequestSent? <==>
              forall i :: 0 <= i < |attendees| ==>
                !Js.AllWhiteSpace(attendees[i].name) && !Js.AllWhiteSpace(attendees[i].email)
    ensures r.RequestSent? ==>
              && r.body.selectedTickets == sel && r.body.attendees == attendees
              && r.body.serviceFee == ServiceFee
              && r.body.total == r.body.subtotal + r.body.serviceFee
              && r.body.subtotal == Subtotal(sel)
  {
    forall a | a in attendees ensures Incomplete(a) <==> Js.AllWhiteSpace(a.name) || Js.AllWhiteSpace(a.email) {
      Js.TrimEmptyIffBlank(a.name);
      Js.TrimEmptyIffBlank(a.email);
    }
    if exists i :: 0 <= i < |attendees| && Incomplete(attendees[i]) then MissingInformation
    else RequestSent(CheckoutBody(sel, attendees, Subtotal(sel), ServiceFee, Total(sel)))
  }

  /** `Object.keys(sel).find((id) => sel[id] > 0)`. */
  function FirstSelected(sel: seq<(string, int)>): (r: Option<string>)
    ensures r.None? <==> forall i :: 0 <= i < |sel| ==> sel[i].1 <= 0
    ensures r.Some? ==>
              exists i :: 0 <= i < |sel| && sel[i].0 == r.value && sel[i].1 > 0
                && forall j :: 0 <= j < i ==> sel[j].1 <= 0
    decreases |sel|
  {
    if |sel| == 0 then None
    else if sel[0].1 > 0 then Some(sel[0].0)
    else
      var r := FirstSelected(sel[1..]);
      assert forall j :: 1 <= j < |sel| ==> sel[j] == sel[1..][j - 1];
      if r.Some? then
        var i :| 0 <= i < |sel[1..]| && sel[1..][i].0 == r.value && sel[1..][i].1 > 0
                 && forall j :: 0 <= j < i ==> sel[1..][j].1 <= 0;
        assert sel[i + 1].0 == r.value && sel[i + 1].1 > 0;
        r
      else r
  }

  /** `getSelectedTicketName()`. */
  function SelectedTicketName(sel: seq<(string, int)>): (r: string)
    ensures r == "Ticket" || exists t :: t in TicketTypes && r == t.name
    ensures r != "Ticket" <==> FirstSelected(sel).Some? && FindType(FirstSelected(sel).value).Some?
    ensures FirstSelected(sel).Some? && FindType(FirstSelected(sel).value).Some? ==>
      r == FindType(FirstSelected(sel).value).value.name
  {
    var first := FirstSelected(sel);
    if first.Some? && FindType(first.value).Some? then FindType(first.value).value.name else "Ticket"
  }

  /**
   * `onUpdateTickets(id, quantity)`: nothing without an id; otherwise the
   * quantity forwarded is clamped to at least 0. The forwarding target,
   * `(TicketCheckout as any).props`, is never set on a function component,
   * so the result is the call it would make.
   */
  function OnUpdateTickets(firstTicketId: Option<string>, quantity: int): (r: Option<(string, int)>)
    ensures r.Some? <==> firstTicketId.Some? && firstTicketId.value != ""
    ensures r.Some? ==> r.value.0 == firstTicketId.value && r.value.1 >= 0
    ensures r.Some? && quantity >= 0 ==> r.value.1 == quantity
    ensures r.Some? && quantity < 0 ==> r.value.1 == 0
  {
    if firstTicketId.None? || firstTicketId.value == "" then None
    else Some((firstTicketId.value, Js.Max(0, quantity)))
  }
}

=== FILE: ticket_form.dfy ===
/**
 * The single-event purchase form: the total shown, the quantities offered
 * in the drop-down, and when the submit button is disabled.
 */
module TicketForm {
  import Js
  import Store
  import InitiatePayment
  import Paystack

  /** The form starts with one ticket selected. */
  const DefaultQuantity: int := 1

  /** The most the drop-down ever offers. */
  const MaxOptions: int := 10

  /**
   * `availableTickets`, computed by the page that renders the form: the
   * largest quantity the server's capacity check lets through for the event.
   */
  function AvailableTickets(event: Store.Event): (r: int)
    ensures forall q :: InitiatePayment.HasCapacity(event, q) <==> q <= r
  {
    event.totalTickets - event.ticketsSold
  }

  /**
   * `totalAmount`: the price shown for the chosen quantity. For a priced
   * ticket it is zero only for no tickets, and one ticket or more cost at
   * least one ticket's price.
   */
  function TotalAmount(quantity: int, ticketPrice: int): (r: int)
    ensures ticketPrice != 0 ==> (r == 0 <==> quantity == 0)
    ensures quantity >= 1 && ticketPrice >= 0 ==> r >= ticketPrice
  {
    quantity * ticketPrice
  }

  /**
   * `Array.from({ length: Math.min(10, availableTickets) }, (_, i) => i + 1)`;
   * a negative length counts as 0.
   */
  function QuantityOptions(availableTickets: int): (opts: seq<int>)
    ensures |opts| == Js.Max(0, Js.Min(MaxOptions, availableTickets))
  {
    seq(Js.Max(0, Js.Min(MaxOptions, availableTickets)), i => i + 1)
  }

  /**
   * A quantity is offered exactly when it is between 1 and 10 and no more
   * than the tickets available; the options ascend strictly.
   */
  lemma OptionsCharacterised(availableTickets: int)
    ensures forall q :: q in QuantityOptions(availableTickets) <==> 1 <= q <= MaxOptions && q <= availableTickets
    ensures forall i, j :: 0 <= i < j < |QuantityOptions(availableTickets)| ==>
              QuantityOptions(availableTickets)[i] < QuantityOptions(availableTickets)[j]
  {
    var opts := QuantityOptions(availableTickets);
    forall q | 1 <= q <= MaxOptions && q <= availableTickets ensures q in opts {
      assert opts[q - 1] == q;
    }
  }

  /**
   * Every quantity offered for an event passes the server's range check and,
   * against the same event record, its capacity check.
   */
  lemma OptionsPassServerChecks(event: Store.Event, q: int)
    requires q in QuantityOptions(AvailableTickets(event))
    ensures InitiatePayment.QuantityInRange(q)
    ensures InitiatePayment.HasCapacity(event, q)
  {
    OptionsCharacterised(AvailableTickets(event));
  }

  /** The default quantity is on offer whenever any ticket is. */
  lemma DefaultQuantityOffered(availableTickets: int)
    requires availableTickets >= 1
    ensures DefaultQuantity in QuantityOptions(availableTickets)
  {
    OptionsCharacterised(availableTickets);
  }

  /**
   * The total the form shows is the amount the server charges for the same
   * quantity and event.
   */
  lemma TotalMatchesServerCharge(req: InitiatePayment.PaymentRequest, db: Store.Db, newId: string,
                                 gateway: Paystack.InitializePayload -> Paystack.InitializeReply)
    requires InitiatePayment.Admissible(req, db) && newId !in db.attendees
    ensures InitiatePayment.Handle(req, db, newId, false, gateway).gatewayCall.value.amount
            == TotalAmount(req.quantity, db.events[req.eventId].ticketPrice)
  {
  }

  /**
   * `isLoading || availableTickets === 0`, the rule as written: it agrees
   * with the intended rule whenever the count is not negative, and leaves
   * submit enabled with nothing on offer when it is.
   */
  function SubmitDisabledAsWritten(isLoading: bool, availableTickets: int): (r: bool)
    ensures availableTickets >= 0 ==> (r <==> SubmitDisabled(isLoading, availableTickets))
    ensures !isLoading && availableTickets < 0 ==> !r && QuantityOptions(availableTickets) == []
  {
    isLoading || availableTickets == 0
  }

  /**
   * With the event oversold (`tickets_sold` above `total_tickets`, which the
   * webhook allows) the rule as written leaves submit enabled although the
   * drop-down offers nothing.
   */
  lemma SubmitEnabledWhenOversold()
    ensures !SubmitDisabledAsWritten(false, -1)
    ensures QuantityOptions(-1) == []
  {
  }

  /** Submit is disabled while loading or while no ticket remains. */
  function SubmitDisabled(isLoading: bool, availableTickets: int): (r: bool)
    ensures r <==> isLoading || QuantityOptions(availableTickets) == []
    ensures !r ==> DefaultQuantity in QuantityOptions(availableTickets)
  {
    var r := isLoading || availableTickets <= 0;
    assert !r ==> DefaultQuantity in QuantityOptions(availableTickets) by {
      if !r { DefaultQuantityOffered(availableTickets); }
    }
    r
  }
}

=== FILE: ticket_generator.dfy ===
/**
 * Ticket identifiers and the data a ticket's QR code carries. The clock and
 * the random source are parameters: `nowMs` stands for `Date.now()` and
 * `randomText` for `Math.random().toString(36)`.
 */
module TicketGenerator {
  import Wrappers
  import Js
  import Radix
  import Text

  datatype TicketData = TicketData(
    attendeeId: string,
    attendeeName: string,
    attendeeEmail: string,
    eventTitle: string,
    eventDate: string,
    eventLocation: string,
    ticketQuantity: int)

  const Prefix: string := "DV-"
  const Separator: char := '-'
  const TimestampBase: int := 36

  /** The first eight characters of the attendee id. */
  function IdSegment(attendeeId: string): string { Js.Substring(attendeeId, 0, 8) }

  /** The clock in base 36. */
  function TimeSegment(nowMs: nat): string { Radix.ToDigits(nowMs, TimestampBase) }

  /** Characters two to seven of the random rendering, skipping its leading "0.". */
  function RandomSegment(randomText: string): string { Js.Substring(randomText, 2, 8) }

  /**
   * `generateTicketId`: "DV-", the id segment, the time segment and the random
   * segment joined by '-', all upper-cased.
   */
  function TicketId(attendeeId: string, nowMs: nat, randomText: string): (r: string)
    ensures |r| >= 6 && r[..3] == Prefix
    ensures forall i :: 0 <= i < |r| ==> !Js.IsLowerAscii(r[i])
    ensures |r| <= 19 + |TimeSegment(nowMs)|
  {
    var raw := Prefix + IdSegment(attendeeId) + "-" + TimeSegment(nowMs) + "-" + RandomSegment(randomText);
    var r := Js.UpperCase(raw);
    assert r[..3] == Js.UpperCase(raw[..3]);
    assert raw[..3] == Prefix;
    r
  }

  /** Upper-casing distributes over the segments of a ticket id. */
  lemma Segments(attendeeId: string, nowMs: nat, randomText: string)
    ensures TicketId(attendeeId, nowMs, randomText)
         == Text.Join(["DV", Js.UpperCase(IdSegment(attendeeId)), Js.UpperCase(TimeSegment(nowMs)),
                       Js.UpperCase(RandomSegment(randomText))], Separator)
  {
    var a, t, n := IdSegment(attendeeId), TimeSegment(nowMs), RandomSegment(randomText);
    var parts := ["DV", Js.UpperCase(a), Js.UpperCase(t), Js.UpperCase(n)];
    assert Text.Join(parts[3..], Separator) == Js.UpperCase(n);
    assert parts[2..][1..] == parts[3..];
    assert Text.Join(parts[2..], Separator) == Js.UpperCase(t) + "-" + Js.UpperCase(n);
    assert parts[1..][1..] == parts[2..];
    assert Text.Join(parts[1..], Separator) == Js.UpperCase(a) + "-" + Js.UpperCase(t) + "-" + Js.UpperCase(n);
    assert Text.Join(parts, Separator)
        == "DV-" + Js.UpperCase(a) + "-" + Js.UpperCase(t) + "-" + Js.UpperCase(n);
    Js.UpperCaseConcat("DV-" + a + "-" + t + "-", n);
    Js.UpperCaseConcat("DV-" + a + "-" + t, "-");
    Js.UpperCaseConcat("DV-" + a + "-", t);
    Js.UpperCaseConcat("DV-" + a, "-");
    Js.UpperCaseConcat("DV-", a);
    assert Js.UpperCase("DV-") == "DV-";
    assert Js.UpperCase("-") == "-";
  }

  lemma UpperKeepsDashFree(s: string)
    requires Separator !in s
    ensures Separator !in Js.UpperCase(s)
  {
    var u := Js.UpperCase(s);
    forall i | 0 <= i < |u| ensures u[i] != Separator {
      assert u[i] == Js.UpperChar(s[i]);
    }
  }

  lemma DigitsDashFree(s: string, base: int)
    requires Radix.ValidBase(base) && Radix.AllDigits(s, base)
    ensures Separator !in s
  {
    forall i | 0 <= i < |s| ensures s[i] != Separator {
      assert Radix.IsDigit(s[i], base);
    }
  }

  /**
   * When neither the id segment nor the random segment holds a '-' (an id
   * segment of a UUID never does), splitting the ticket id on '-' gives back
   * exactly its four fields.
   */
  lemma Fields(attendeeId: string, nowMs: nat, randomText: string)
    requires Separator !in IdSegment(attendeeId) && Separator !in RandomSegment(randomText)
    ensures Text.Split(TicketId(attendeeId, nowMs, randomText), Separator)
         == ["DV", Js.UpperCase(IdSegment(attendeeId)), Js.UpperCase(TimeSegment(nowMs)),
             Js.UpperCase(RandomSegment(randomText))]
  {
    var parts := ["DV", Js.UpperCase(IdSegment(attendeeId)), Js.UpperCase(TimeSegment(nowMs)),
                  Js.UpperCase(RandomSegment(randomText))];
    Segments(attendeeId, nowMs, randomText);
    UpperKeepsDashFree(IdSegment(attendeeId));
    UpperKeepsDashFree(RandomSegment(randomText));
    DigitsDashFree(TimeSegment(nowMs), TimestampBase);
    UpperKeepsDashFree(TimeSegment(nowMs));
    assert Separator !in parts[0];
    Text.SplitJoin(parts, Separator);
  }

  /** The time field of a ticket id reads back, with `parseInt(_, 36)`, to the clock reading. */
  lemma TimeRecoverable(attendeeId: string, nowMs: nat, randomText: string)
    requires Separator !in IdSegment(attendeeId) && Separator !in RandomSegment(randomText)
    ensures var fields := Text.Split(TicketId(attendeeId, nowMs, randomText), Separator);
            |fields| == 4 && Radix.FromDigits(fields[2], TimestampBase) == Wrappers.Some(nowMs)
  {
    Fields(attendeeId, nowMs, randomText);
    Radix.FromUpperDigits(nowMs, TimestampBase);
  }

  /** Ticket ids generated at different milliseconds differ, whatever the random parts. */
  lemma DistinctTimesDistinctIds(attendeeId: string, t1: nat, r1: string, t2: nat, r2: string)
    requires Separator !in IdSegment(attendeeId)
    requires Separator !in RandomSegment(r1) && Separator !in RandomSegment(r2)
    requires t1 != t2
    ensures TicketId(attendeeId, t1, r1) != TicketId(attendeeId, t2, r2)
  {
    TimeRecoverable(attendeeId, t1, r1);
    TimeRecoverable(attendeeId, t2, r2);
  }

  /**
   * Only the first eight characters of the attendee id enter the ticket id:
   * two attendees whose ids share them get the same ticket id from the same
   * clock and random readings.
   */
  lemma OnlyIdPrefixMatters(a: string, b: string, nowMs: nat, randomText: string)
    requires |a| >= 8 && |b| >= 8 && a[..8] == b[..8]
    ensures TicketId(a, nowMs, randomText) == TicketId(b, nowMs, randomText)
  {
    assert IdSegment(a) == a[..8];
    assert IdSegment(b) == b[..8];
  }

  /** The random field holds at most six characters. */
  lemma RandomFieldLength(randomText: string)
    ensures |RandomSegment(randomText)| <= 6
  {
  }

  /** The record `generateQRCodeData` serialises. */
  datatype QrPayload = QrPayload(
    ticketId: string,
    attendeeId: string,
    eventTitle: string,
    attendeeName: string,
    quantity: int,
    timestamp: string)

  /** `generateQRCodeData`, with `timestamp` standing for `new Date().toISOString()`. */
  function QrCodeData(data: TicketData, ticketId: string, timestamp: string): (p: QrPayload)
    ensures p.ticketId == ticketId && p.timestamp == timestamp
    ensures p.attendeeId == data.attendeeId && p.attendeeName == data.attendeeName
    ensures p.eventTitle == data.eventTitle && p.quantity == data.ticketQuantity
  {
    QrPayload(ticketId, data.attendeeId, data.eventTitle, data.attendeeName, data.ticketQuantity, timestamp)
  }

  /** The email, date and location never reach the QR code. */
  lemma QrOmitsContactAndVenue(data: TicketData, email: string, date: string, location: string,
                               ticketId: string, timestamp: string)
    ensures QrCodeData(data.(attendeeEmail := email, eventDate := date, eventLocation := location), ticketId, timestamp)
         == QrCodeData(data, ticketId, timestamp)
  {
  }
}

=== FILE: ticket_selection.dfy ===
/**
 * The ticket-selection page: a quantity per ticket type, changed by the
 * +/- buttons, and the "Get Tickets" button enabled once something is
 * selected.
 */
module TicketSelection {
  import Js

  predicate DistinctKeys(s: seq<(string, int)>) {
    forall i, j :: 0 <= i < j < |s| ==> s[i].0 != s[j].0
  }

  /**
   * A `{ [key: string]: number }` object: its entries in insertion order,
   * each key once.
   */
  type Quantities = s: seq<(string, int)> | DistinctKeys(s)

  /** The id of the only ticket type the selection page lists ("Regular", 500000 kobo). */
  const RegularId: string := "regular"

  /** The position of `id` among the keys, or |q| when it is absent. */
  function Find(q: seq<(string, int)>, id: string): (i: nat)
    ensures i <= |q|
    ensures i < |q| ==> q[i].0 == id
    ensures forall j :: 0 <= j < i ==> q[j].0 != id
    decreases |q|
  {
    if |q| == 0 then 0 else if q[0].0 == id then 0 else 1 + Find(q[1..], id)
  }

  function Keys(q: seq<(string, int)>): set<string> {
    set i | 0 <= i < |q| :: q[i].0
  }

  /** `q[id] || 0`: the quantity under `id`, an absent key reading as 0. */
  function Get(q: Quantities, id: string): (r: int)
    ensures id !in Keys(q) ==> r == 0
    ensures forall i :: 0 <= i < |q| && q[i].0 == id ==> r == q[i].1
  {
    var i := Find(q, id);
    if i < |q| then q[i].1 else 0
  }

  /** `{ ...q, [id]: v }`: an existing key keeps its place, a new one goes last. */
  function Put(q: Quantities, id: string, v: int): (r: Quantities)
    ensures Keys(r) == Keys(q) + {id}
    ensures Get(r, id) == v
    ensures forall k :: k != id ==> Get(r, k) == Get(q, k)
  {
    var i := Find(q, id);
    if i < |q| then
      var r := q[i := (id, v)];
      assert forall j :: 0 <= j < |q| ==> r[j].0 == q[j].0;
      assert Keys(r) == Keys(q);
      r
    else
      var r := q + [(id, v)];
      assert forall j :: 0 <= j < |q| ==> r[j] == q[j];
      assert r[|q|].0 == id;
      assert Keys(r) == Keys(q) + {id} by {
        forall k | k in Keys(r) ensures k in Keys(q) + {id} {
          var j :| 0 <= j < |r| && r[j].0 == k;
        }
      }
      r
  }

  /** The +/- buttons: the new quantity is the old one plus `change`, never below 0. */
  function UpdateQuantity(q: Quantities, id: string, change: int): (r: Quantities)
    ensures Get(r, id) == Js.Max(0, Get(q, id) + change)
    ensures Get(r, id) >= 0
    ensures forall k :: k != id ==> Get(r, k) == Get(q, k)
    ensures Keys(r) == Keys(q) + {id}
  {
    Put(q, id, Js.Max(0, Get(q, id) + change))
  }

  ghost predicate NonNegative(q: Quantities) {
    forall k :: Get(q, k) >= 0
  }

  /** `Object.values(q).some((qty) => qty > 0)`: the "Get Tickets" button is enabled. */
  function HasSelectedTickets(q: Quantities): (r: bool)
    ensures r <==> exists k :: Get(q, k) > 0
  {
    var r := exists i :: 0 <= i < |q| && q[i].1 > 0;
    assert r ==> exists k :: Get(q, k) > 0 by {
      if r {
        var i :| 0 <= i < |q| && q[i].1 > 0;
        assert Get(q, q[i].0) > 0;
      }
    }
    r
  }

  /** The page starts with no entries. */
  const Initial: Quantities := []

  /** A run of button presses, each a key and a change. */
  function Press(q: Quantities, presses: seq<(string, int)>): Quantities
    decreases |presses|
  {
    if |presses| == 0 then q else Press(UpdateQuantity(q, presses[0].0, presses[0].1), presses[1..])
  }

  /** Quantities never go negative, whatever buttons are pressed. */
  lemma {:induction false} PressKeepsNonNegative(q: Quantities, presses: seq<(string, int)>)
    requires NonNegative(q)
    ensures NonNegative(Press(q, presses))
    decreases |presses|
  {
    if |presses| > 0 {
      var next := UpdateQuantity(q, presses[0].0, presses[0].1);
      assert NonNegative(next) by {
        forall k ensures Get(next, k) >= 0 {
          if k != presses[0].0 { assert Get(next, k) == Get(q, k); }
        }
      }
      PressKeepsNonNegative(next, presses[1..]);
    }
  }

  lemma InitialNonNegative()
    ensures NonNegative(Initial)
  {
  }

  /** At 0, the minus button leaves the quantity at 0. */
  lemma DecrementAtZero(q: Quantities, id: string)
    requires Get(q, id) == 0
    ensures Get(UpdateQuantity(q, id, -1), id) == 0
  {
  }

  /** Plus then minus restores a non-negative quantity and leaves every other key alone. */
  lemma IncrementThenDecrement(q: Quantities, id: string)
    requires Get(q, id) >= 0
    ensures forall k :: Get(UpdateQuantity(UpdateQuantity(q, id, 1), id, -1), k) == Get(q, k)
  {
  }
}

=== FILE: verify_payment.dfy ===
/**
 * `GET /api/verify-payment?reference=…`: asks the gateway about the
 * transaction, finds the attendee whose `paystack_ref` is the reference,
 * and reports both side by side. It only reads the store.
 */
module VerifyPayment {
  import opened Wrappers
  import opened Store
  import opened Paystack
  import opened Http

  /** The response, the store afterwards, and whether the gateway was asked. */
  datatype Outcome = Outcome(response: Response, db: Db, gatewayQueried: bool)

  /** The ids of the attendees whose `paystack_ref` is `reference`. */
  function Matches(db: Db, reference: string): set<string> {
    set id | id in db.attendees && db.attendees[id].paystackRef == Some(reference)
  }

  function View(id: string, a: Attendee): AttendeeView {
    AttendeeView(id, a.name, a.email, a.ticketQuantity, a.paymentStatus)
  }

  /**
   * Handles one request; `reference` is "" when the query has none, and
   * `gateway` answers the verification call. The lookup uses `.single()`,
   * which fails unless exactly one row matches; `lookupFails` is a store
   * error on that query, which the route also answers with 404.
   */
  ghost function Handle(reference: string, db: Db, lookupFails: bool, gateway: string -> VerifyReply): (o: Outcome)
    ensures o.db == db
    ensures o.gatewayQueried <==> reference != ""
    ensures reference == "" ==> o.response == Fail(400, "Payment reference is required")
    ensures reference != "" && gateway(reference).VerifyThrew? ==> o.response == Fail(500, "Internal server error")
    ensures reference != "" && gateway(reference).VerifyReply? && !gateway(reference).status ==>
              o.response == Fail(400, "Payment verification failed")
    ensures reference != "" && gateway(reference).VerifyReply? && gateway(reference).status
            && (lookupFails || |Matches(db, reference)| != 1) ==>
              o.response == Fail(404, "Attendee record not found")
    ensures o.response.status == 200 <==>
              reference != "" && gateway(reference).VerifyReply? && gateway(reference).status
              && !lookupFails && |Matches(db, reference)| == 1
    // the gateway's status and amount are reported next to the stored status, unreconciled
    ensures o.response.status == 200 ==>
              exists id :: Matches(db, reference) == {id}
                && o.response.body
                   == Verification(gateway(reference).transaction.status, gateway(reference).transaction.amount,
                                   gateway(reference).transaction.paidAt, View(id, db.attendees[id]))
  {
    if reference == "" then Outcome(Fail(400, "Payment reference is required"), db, false)
    else
      match gateway(reference)
      case VerifyThrew => Outcome(Fail(500, "Internal server error"), db, true)
      case VerifyReply(status, tx) =>
        if !status then Outcome(Fail(400, "Payment verification failed"), db, true)
        else
          var found := Matches(db, reference);
          if lookupFails || |found| != 1 then Outcome(Fail(404, "Attendee record not found"), db, true)
          else
            var id :| id in found;
            SingletonSet(found, id);
            Outcome(Ok(Verification(tx.status, tx.amount, tx.paidAt, View(id, db.attendees[id]))), db, true)
  }

  lemma SingletonSet<T>(s: set<T>, x: T)
    requires |s| == 1 && x in s
    ensures s == {x}
  {
    assert |s - {x}| == 0;
  }
}

=== FILE: wrappers.dfy ===
/** Optional values, standing in for JavaScript's `null` / `undefined`. */
module Wrappers {

  datatype Option<+T> = None | Some(value: T)
}
